=== FILE: README.md ===
# 2048 game engine, modelled in Dafny

This project models the `Game` class of a browser 2048 game. The class holds
a 4x4 board of tiles (0 is an empty cell), a score and a status (`idle`,
`playing`, `win`, `lose`). It also provides the move dispatcher that slides
and merges tiles in one of four directions. The model is a set of pure
functions over an immutable `State(board, score, status)`.

- `RowProcessor` is the row processor (`_processRow`). It drops the empty
  cells, merges equal neighbours left to right (each tile at most once), and
  pads with zeros. `ProcessRowScan` is the loop as the engine writes it, and
  it is proved equal to the functional definition.
- `Grid` holds the board shape, the transpose (`_transposeBoard`), the
  row-major list of empty cells, and the count and total of the tiles.
- `Spawner` is the tile spawner (`_spawnNewTile`). Its two random draws, the
  index into the list of empty cells and whether the tile is a 4, come in as
  a `Choice` parameter.
- `Terminal` is the terminal detector (`_checkForGameOver`).
- `Game` holds the constructor (`New`), `Restart`, `Start`, the slides and
  `Move`, which returns the new state together with the boolean the engine
  returns.
- `GameProperties` holds the properties that relate several operations:
  score monotonicity, stuck boards, the mirror symmetry of Left and Right,
  and how the status evolves.
- `Tiles` and `GameStatus` hold shared line facts and the status type.

Equality of boards (the engine compares `JSON.stringify` strings) is
structural equality of `seq<seq<int>>`. The getters `getScore`, `getState`
and `getStatus` are the fields of `State`; `getStatus` reports
`GameStatus.Name(status)`.

## Model

| member | source | states |
|---|---|---|
| Tiles.Reverse | src/modules/Game.class.js:139 | the reversed row has the same length, and cell i is the input's cell from the other end |
| Tiles.ReverseReverse | src/modules/Game.class.js:139 | reversing before and after processing restores the orientation: reversing twice is the identity |
| GameStatus.Name | src/modules/Game.class.js:188-190 | the status reported to the caller is one of the engine's status strings "idle", "playing", "win", "lose" |
| GameStatus.NameInjective | src/modules/Game.class.js:123 | the four statuses have distinct names, and none of them is "game over", so the move guard never fires |
| RowProcessor.Compact | src/modules/Game.class.js:59 | the filtered row has no empty cell, has as many cells as the row has occupied cells, keeps the tile total, and is the row itself when the row had no empty cell |
| RowProcessor.CompactOne | src/modules/Game.class.js:59 | a single cell survives the filter exactly when it is not 0 |
| RowProcessor.CompactConcat | src/modules/Game.class.js:59 | the filter keeps the original order: the filtered join of two lines is the join of the filtered lines |
| RowProcessor.CompactCount | src/modules/Game.class.js:59 | the filter drops only empty cells: every non-zero value occurs as often as in the row |
| RowProcessor.Merge | src/modules/Game.class.js:62-77 | each merge turns two tiles into one, so the cells plus the merged values number the input tiles, and at most half the tiles merge |
| RowProcessor.MergeSum | src/modules/Game.class.js:62-77 | merging keeps the total of the tile values |
| RowProcessor.MergeSigns | src/modules/Game.class.js:62-77 | merging non-zero tiles gives non-zero tiles, and non-negative tiles give non-negative cells and merged values |
| RowProcessor.MergeNone | src/modules/Game.class.js:63 | no merge happens if and only if no two neighbours are equal, and then the pass returns its input |
| RowProcessor.MergeTiles | src/modules/Game.class.js:70-75 | every merged value is a cell of the result, and every cell of the result is an input tile or a merged value (as multisets) |
| RowProcessor.ProcessRow | src/modules/Game.class.js:58-84 | processing a row changes the status only to Win |
| RowProcessor.Pad | src/modules/Game.class.js:79-81 | padding keeps the merged cells in front and appends zeros up to four cells; a longer line is left alone |
| RowProcessor.PadCounts | src/modules/Game.class.js:79-81 | padding keeps the tile total and the number of occupied cells |
| RowProcessor.ProcessRowShape | src/modules/Game.class.js:58-84 | the processed row has four cells (for input rows of at most four), zeros only after the tiles, the same tile total, and no more occupied cells |
| RowProcessor.ProcessRowScore | src/modules/Game.class.js:71 | the score never decreases on non-negative tiles; without equal neighbours after filtering, the score and status are kept and the row only slides |
| RowProcessor.ProcessRowWin | src/modules/Game.class.js:66-68 | the status changes only to Win, and then the row holds a 2048; a row that ends with more 2048s than it started with always sets Win |
| RowProcessor.ProcessRowUnchanged | src/modules/Game.class.js:58-84 | a row that comes back unchanged keeps the score and the status |
| RowProcessor.ProcessRowBlocked | src/modules/Game.class.js:58-84 | a full row of four with no equal neighbours is returned as it is, with score and status kept |
| RowProcessor.ProcessRowRight | src/modules/Game.class.js:139 | processing a reversed row and reversing back changes the status only to Win |
| RowProcessor.ProcessRowRightShape | src/modules/Game.class.js:148-150 | sliding toward the last index keeps the tile total, puts the zeros first, gives four cells, and never lowers the score on non-negative tiles |
| RowProcessor.ProcessRowRightUnchanged | src/modules/Game.class.js:148-150 | a row that slides toward the last index and comes back unchanged keeps the score and the status |
| RowProcessor.ProcessRowRightBlocked | src/modules/Game.class.js:148-150 | a full row of four with no equal neighbours does not slide toward its last index either |
| RowProcessor.ProcessRowFullUnchanged | src/modules/Game.class.js:58-84 | a row of four that comes out with no empty cell came out unchanged: a merge or a closed gap always leaves a 0 at the end |
| RowProcessor.ProcessRowRightFullUnchanged | src/modules/Game.class.js:148-150 | the same holds for a row slid toward its last index |
| RowProcessor.ProcessRowFourEqual | src/modules/Game.class.js:62-77 | [2, 2, 2, 2] becomes [4, 4, 0, 0] and scores 8: two pairs, not one tile of 8 |
| RowProcessor.ProcessRowGap | src/modules/Game.class.js:59-77 | [2, 0, 2, 2] becomes [4, 2, 0, 0] and scores 4: a tile consumed by a merge does not merge again |
| RowProcessor.ProcessRowWinningMerge | src/modules/Game.class.js:64-71 | merging two 1024s gives 2048, scores 2048 and sets Win |
| RowProcessor.ProcessRowScan | src/modules/Game.class.js:58-84 | the filter, the skip-after-merge loop and the padding loop compute exactly the functional row processor: cells, score and status |
| RowProcessor.MergeScan | src/modules/Game.class.js:62-77 | the index loop that skips the partner of each merge yields the merged cells, adds the merged values to the score, and sets Win exactly when a 2048 is formed |
| RowProcessor.PadScan | src/modules/Game.class.js:79-81 | the padding loop yields the padded line |
| Grid.EmptyBoard | src/modules/Game.class.js:27-32 | the default board is 4x4 with every cell 0 |
| Grid.Transpose | src/modules/Game.class.js:86-101 | cell (i, j) of the transposed board is cell (j, i) of the board, and the result is 4x4 |
| Grid.TransposeTwice | src/modules/Game.class.js:131-133 | transposing twice gives back the board, so Up and Down restore the orientation |
| Grid.EmptyCells | src/modules/Game.class.js:36-44 | every listed cell is on the board and empty, and the list has 16 minus the number of occupied cells entries |
| Grid.EmptyCellsComplete | src/modules/Game.class.js:38-44 | every empty cell of the board is listed |
| Grid.EmptyCellsOrdered | src/modules/Game.class.js:38-44 | the list follows the row-major scan strictly, so no cell is listed twice |
| Grid.EmptyCellsNoneIffFull | src/modules/Game.class.js:46-48 | the list of empty cells is empty exactly when the board is full |
| Grid.FirstEmptyCell | src/modules/Game.class.js:38-44 | the first entry of the list is the first empty cell in row-major order |
| Grid.Place | src/modules/Game.class.js:55 | the chosen cell takes the value and every other cell is unchanged |
| Grid.PlaceCounts | src/modules/Game.class.js:55 | filling an empty cell with a tile adds one occupied cell and the tile's value to the total |
| Spawner.TileValue | src/modules/Game.class.js:53 | the new tile is a 2 or a 4 |
| Spawner.Spawn | src/modules/Game.class.js:35-56 | a full board is returned as it is; otherwise the count of tiles grows by one and the total by the new tile's value |
| Spawner.SpawnCell | src/modules/Game.class.js:50-55 | on a board with an empty cell, the chosen entry of the list is an empty cell on the board, it takes the 2 or 4, and every other cell is kept |
| Spawner.EmptyCellIndex | src/modules/Game.class.js:36-52 | every empty cell has a position in the list from which the draw picks |
| Spawner.SpawnReachesEveryEmptyCell | src/modules/Game.class.js:50-55 | every empty cell can receive the new tile, with either value |
| Spawner.SpawnNonNegative | src/modules/Game.class.js:55 | spawning keeps the tiles non-negative |
| Terminal.Stuck | src/modules/Game.class.js:103-120 | the board on which the game-over check declares a loss: full, with no two equal horizontal or vertical neighbours |
| Terminal.ScanRow | src/modules/Game.class.js:105-117 | scanning a row reports an opening if and only if some cell from the start column on is empty or equals its right or lower neighbour |
| Terminal.ScanFrom | src/modules/Game.class.js:104-118 | scanning the rows reports an opening if and only if some cell of those rows has one |
| Terminal.StuckIffNoOpening | src/modules/Game.class.js:104-119 | the scan finds no opening if and only if the board is full with no equal horizontal or vertical neighbours |
| Terminal.CheckGameOver | src/modules/Game.class.js:103-120 | the status becomes Lose exactly on a stuck board (full, no equal neighbours), and otherwise stays whatever it was, Win included |
| Game.ParseDirection | src/modules/Game.class.js:129-152 | exactly the four tokens "Up", "Down", "Left" and "Right" are recognised, each as its own direction |
| Game.EmptyBoardCount | src/modules/Game.class.js:27-32 | the default board has no tile and total 0 |
| Game.New | src/modules/Game.class.js:23-33 | a new game has score 0, status Idle, and the given board as given, or else an empty 4x4 board |
| Game.Restart | src/modules/Game.class.js:202-215 | a restarted game has score 0, status Playing, and exactly two tiles, each a 2 or a 4 |
| Game.RestartSpawns | src/modules/Game.class.js:213-214 | both draws of a restart fit their board, and the two spawns leave two tiles of value 2 or 4 |
| Game.TwoSpawns | src/modules/Game.class.js:206-214 | on any board with no tile, two spawns both find an empty cell and leave exactly two tiles, each a 2 or a 4 |
| Game.SpawnKeepsSpawnedTiles | src/modules/Game.class.js:53-55 | a spawn adds only a 2 or a 4, so a board whose tiles are all 2s and 4s keeps that property |
| Game.Start | src/modules/Game.class.js:195-197 | starting is restarting: score 0, status Playing and two spawned tiles |
| Game.ProcessLine | src/modules/Game.class.js:139-149 | one row slid toward index 0 or toward its last index keeps the tile total, has four cells when the row had at most four, and changes the status only to Win |
| Game.SlideRows | src/modules/Game.class.js:145 | mapping the row processor over the rows keeps the number of rows, and the status is kept or becomes Win |
| Game.SlideRowsShape | src/modules/Game.class.js:145 | rows of four cells slide to rows of four cells |
| Game.Slide | src/modules/Game.class.js:129-152 | each direction's slide yields a 4x4 board |
| Game.SlideUnchanged | src/modules/Game.class.js:154 | a slide that leaves the board unchanged leaves the score and the status unchanged too |
| Game.SlideRowsUnchanged | src/modules/Game.class.js:145 | rows that all slide back to themselves keep the score and the status |
| Game.SlideRowsTotal | src/modules/Game.class.js:145 | sliding rows keeps the total of the tile values |
| Game.TransposeTotal | src/modules/Game.class.js:86-101 | transposing keeps the total of the tile values |
| Game.SlideTotal | src/modules/Game.class.js:129-152 | a slide in any direction keeps the total of the tile values |
| Game.SpawnAfterChange | src/modules/Game.class.js:154-157 | a board that the slide changed is still different from the old board after the spawn |
| Game.SlideSettles | src/modules/Game.class.js:127-154 | a slide keeps the total of the tile values, and a slide that leaves the board as it was leaves the score and status as they were |
| Game.Advance | src/modules/Game.class.js:154-161 | after the slide, the move reports true exactly when the final board differs from the old one, and on false the state is the old state |
| Game.Move | src/modules/Game.class.js:122-162 | the move returns true if and only if the final board differs from the old one; when it returns false the whole state is unchanged; the board stays 4x4 |
| GameProperties.MoveUnknownToken | src/modules/Game.class.js:129-154 | an unrecognised direction changes nothing and returns false |
| GameProperties.LoseDoesNotBlockMove | src/modules/Game.class.js:123-125 | a game already lost still moves when the slide changes the board |
| GameProperties.MoveSpawnsOneTile | src/modules/Game.class.js:154-158 | an effective move spawns on the slid board and keeps the slide's score; the slid board always has an empty cell, so the move adds exactly one tile |
| GameProperties.MoveStatus | src/modules/Game.class.js:119 | a move keeps the status, sets Win, or sets Lose, and a new Lose comes only with a full board without equal neighbours |
| GameProperties.MoveEndsWithGameOverCheck | src/modules/Game.class.js:154-159 | on a move that changes the board, the result is Lose exactly when the spawned board is stuck or the status was Lose already; on a board that is not stuck the status the slide left survives |
| GameProperties.WinOverwrittenByLose | src/modules/Game.class.js:156-159 | a Win set by the slide becomes Lose when the spawn leaves a stuck board: the terminal check does not protect a win |
| GameProperties.WitnessMeetsRequirements | src/modules/Game.class.js:154-159 | the requirements of `WinOverwrittenByLose` can all be met: on the board `[[1024,1024,2,4],[8,16,8,16],[16,8,16,8],[8,16,8,16]]`, Left forms a 2048 and sets Win, the draw fits, and the spawned board is stuck |
| GameProperties.WinOverwrittenByLoseWitness | src/modules/Game.class.js:154-159 | on that board, a game in progress loses with a single Left move, with 0 as the drawn index and a 2 as the tile, even though the move formed a 2048 |
| GameProperties.WitnessSlideResult | src/modules/Game.class.js:144-146 | the Left slide of that board merges only the first row, to `[2048,2,4,0]`, with score 2048 and status Win |
| GameProperties.WitnessWinningRow | src/modules/Game.class.js:62-71 | the row `[1024,1024,2,4]` slides left to `[2048,2,4,0]`, scores 2048 and sets Win |
| GameProperties.SlideLeftFirstRowOnly | src/modules/Game.class.js:144-146 | when the first row forms a 2048 and the other rows are blocked, a Left slide from score 0 changes only the first row and ends with Win |
| GameProperties.WitnessSpawnResult | src/modules/Game.class.js:34-55 | on the slid board, index 0 draws the single gap, and the 2 placed there leaves a board that is full with no equal neighbours |
| GameProperties.SpawnFirstEmpty | src/modules/Game.class.js:37-55 | index 0 fills the first empty cell in row-major order |
| GameProperties.StuckFromRows | src/modules/Game.class.js:103-119 | a board whose rows are full with no equal neighbours, and whose vertically adjacent cells all differ, is stuck |
| GameProperties.SlideStatus | src/modules/Game.class.js:66-68 | a slide keeps the status or sets Win |
| GameProperties.SlideRowsNonNegative | src/modules/Game.class.js:71 | sliding rows of non-negative tiles never lowers the score and keeps the tiles non-negative |
| GameProperties.ProcessLineNonNegative | src/modules/Game.class.js:139-149 | a row of non-negative tiles, slid either way, stays non-negative and does not lower the score |
| GameProperties.SlideNonNegative | src/modules/Game.class.js:129-152 | on non-negative tiles a slide in any direction never lowers the score and keeps the tiles non-negative |
| GameProperties.MoveScoreNeverDecreases | src/modules/Game.class.js:122-162 | on non-negative tiles a move never lowers the score and keeps the tiles non-negative |
| GameProperties.SlideRowsFullUnchanged | src/modules/Game.class.js:145-150 | rows of four that all slide to rows without an empty cell were not changed |
| GameProperties.SlideFullUnchanged | src/modules/Game.class.js:129-154 | a slide in any direction that leaves no empty cell left the board as it was, so every effective slide leaves room for the new tile |
| GameProperties.ProcessLineBlocked | src/modules/Game.class.js:139-149 | a full row of four with no equal neighbours slides, either way, to itself with score and status kept |
| GameProperties.SlideRowsBlocked | src/modules/Game.class.js:145 | rows that are full with no equal neighbours slide to themselves |
| GameProperties.StuckSlide | src/modules/Game.class.js:129-152 | on a full board with no equal neighbours no slide, in any direction, changes anything |
| GameProperties.StuckBoardCannotMove | src/modules/Game.class.js:103-120 | Lose is declared only when no move is possible: on such a board every move returns false and changes nothing |
| GameProperties.MirrorRows | src/modules/Game.class.js:148-150 | the mirrored board reverses every row |
| GameProperties.SlideRowsMirror | src/modules/Game.class.js:145-150 | sliding the mirrored rows right gives the mirror of sliding the rows left, with the same score and status |
| GameProperties.RightMirrorsLeft | src/modules/Game.class.js:144-151 | Right on the mirrored board is the mirror of Left, with the same score and status |
| GameProperties.PlayScoreNeverDecreases | src/modules/Game.class.js:71 | over any sequence of moves on non-negative tiles the score never decreases |

## Left out

- `src/scripts/index.js`, the page script that wires keys and buttons to the engine and renders the board, is not part of this model.
- `Math.random` is not modelled: both draws of a spawn arrive as a `Choice`. The 10% chance of a 4 and the uniform choice of cell are not modelled; only which outcomes are possible is.
- Spawner.Spawn: requires the drawn index to be below the number of empty cells. `Math.floor(Math.random() * n)` always meets this, so `Move`, `Restart` and `Start` carry the same requirement (`CanSpawnAfter`, and indices below 16 and 15).
- Grid.Transpose: requires a 4x4 board, and so do `Slide`, `Move`, `Spawn` and `CheckGameOver`. `New` accepts any board, as the constructor does. The engine's behaviour on other shapes is not modelled. In the engine, Left and Right process rows of any length: `_processRow` pads a short row to four cells and leaves a longer one as it is (`src/modules/Game.class.js:79-81`). `_transposeBoard` reads only the 4x4 corner (`:94-96`), so Up and Down silently cut a larger board down to 4x4. Only a board with fewer than four rows or columns makes `_transposeBoard` and `_checkForGameOver` read `undefined`. With a row missing, Up and Down throw a TypeError in `_transposeBoard` at the lookup `this.board[i][j]` (`:96`). After a Left or Right move, the game-over check throws at `:110`, where it reads `this.board[i + 1][j]` below the last row. It gets there only when the rows that exist are full with no equal neighbours.
- Game.New: a supplied board is used as the value it is. The engine keeps a reference to the caller's array, and `getState` hands out the live board; aliasing is not modelled.
- GameProperties.MoveScoreNeverDecreases: holds only for boards of non-negative tiles. The engine accepts any initial board, and a negative tile can merge into a negative score.
- The boards a real game reaches hold only powers of two. That invariant is not modelled; the properties above hold for every integer board, or every non-negative one where stated.
- JavaScript numbers are doubles; tile values and the score are unbounded integers here. No reachable game comes near 2^53.
- Only one worked whole-board move is stated: `GameProperties.WinOverwrittenByLoseWitness`, proved row by row through lemmas over row parameters. Further whole-board examples are left out, because evaluating moves on literal boards directly is too costly for the verifier.

=== FILE: game.dfy ===
/**
 The game engine: a board, a score and a status, the constructor, the
 lifecycle operations and the move dispatcher that composes the row
 processor with reversal and transposition.
 */
module Game {
  import opened Tiles
  import opened GameStatus
  import opened Grid
  import opened RowProcessor
  import opened Spawner
  import opened Terminal

  datatype Option<T> = None | Some(value: T)

  /** Everything the engine owns. */
  datatype State = State(board: Board, score: int, status: Status)

  datatype Direction = Up | Down | Left | Right

  /** The direction tokens the move dispatcher recognises. */
  function ParseDirection(token: string): (d: Option<Direction>)
    ensures d.Some? <==> token == "Up" || token == "Down" || token == "Left" || token == "Right"
    ensures d == Some(Up) <==> token == "Up"
    ensures d == Some(Down) <==> token == "Down"
    ensures d == Some(Left) <==> token == "Left"
    ensures d == Some(Right) <==> token == "Right"
  {
    if token == "Up" then Some(Up)
    else if token == "Down" then Some(Down)
    else if token == "Left" then Some(Left)
    else if token == "Right" then Some(Right)
    else None
  }

  lemma EmptyBoardCount()
    ensures Count(EmptyBoard()) == 0
    ensures Total(EmptyBoard()) == 0
  {
    var b := EmptyBoard();
    SumZeros(Size);
    assert b[1..][1..][1..][1..] == [];
  }

  /** A new game: score 0, status Idle, and the given board or an empty one.
      The given board is taken as it is, without any check. */
  function New(initial: Option<Board>): (st: State)
    ensures st.score == 0 && st.status == Idle
    ensures initial.Some? ==> st.board == initial.value
    ensures initial.None? ==> WellFormed(st.board) && Count(st.board) == 0
  {
    EmptyBoardCount();
    State(if initial.Some? then initial.value else EmptyBoard(), 0, Idle)
  }

  /** Resets the game: score 0, status Playing, and an empty board on which
      two tiles are spawned, one choice for each. The first draw is below 16
      and the second below 15, the numbers of empty cells at the two spawns. */
  function Restart(first: Choice, second: Choice): (st: State)
    requires first.index < Size * Size && second.index < Size * Size - 1
    ensures WellFormed(st.board) && st.score == 0 && st.status == Playing
    ensures Count(st.board) == 2
    ensures SpawnedTiles(st.board)
  {
    RestartSpawns(first, second);
    State(Spawn(Spawn(EmptyBoard(), first), second), 0, Playing)
  }

  /** The two spawns of a restart each fill one more cell of the empty board
      with a 2 or a 4. */
  lemma RestartSpawns(first: Choice, second: Choice)
    requires first.index < Size * Size && second.index < Size * Size - 1
    ensures Fits(EmptyBoard(), first) && Fits(Spawn(EmptyBoard(), first), second)
    ensures Count(Spawn(Spawn(EmptyBoard(), first), second)) == 2
    ensures SpawnedTiles(Spawn(Spawn(EmptyBoard(), first), second))
  {
    EmptyBoardCount();
    EmptyBoardSpawnedTiles();
    TwoSpawns(EmptyBoard(), first, second);
  }

  /** Two spawns on a board with no tiles both fit, and leave two tiles of
      2 or 4. */
  lemma TwoSpawns(b: Board, first: Choice, second: Choice)
    requires WellFormed(b) && Count(b) == 0 && SpawnedTiles(b)
    requires first.index < Size * Size && second.index < Size * Size - 1
    ensures Fits(b, first) && Fits(Spawn(b, first), second)
    ensures Count(Spawn(Spawn(b, first), second)) == 2
    ensures SpawnedTiles(Spawn(Spawn(b, first), second))
  {
    SpawnFitsBelowFree(b, first);
    SpawnFitsBelowFree(Spawn(b, first), second);
    SpawnTwiceKeepsSpawnedTiles(b, first, second);
  }

  lemma EmptyBoardSpawnedTiles()
    ensures SpawnedTiles(EmptyBoard())
  {
  }

  lemma SpawnTwiceKeepsSpawnedTiles(b: Board, first: Choice, second: Choice)
    requires WellFormed(b) && SpawnedTiles(b) && Fits(b, first) && Fits(Spawn(b, first), second)
    ensures SpawnedTiles(Spawn(Spawn(b, first), second))
  {
    SpawnKeepsSpawnedTiles(b, first);
    SpawnKeepsSpawnedTiles(Spawn(b, first), second);
  }

  /** An index below the number of free cells fits the board, and the spawn
      then fills one of them. */
  lemma SpawnFitsBelowFree(b: Board, c: Choice)
    requires WellFormed(b) && c.index < Size * Size - Count(b)
    ensures Fits(b, c) && !Full(b)
    ensures Count(Spawn(b, c)) == Count(b) + 1
  {
    EmptyCellsNoneIffFull(b);
  }

  /** Every cell is empty or holds a tile the spawner can place. */
  predicate SpawnedTiles(b: Board)
    requires WellFormed(b)
  {
    forall i, j :: 0 <= i < Size && 0 <= j < Size ==> b[i][j] in {0, 2, 4}
  }

  lemma SpawnKeepsSpawnedTiles(b: Board, c: Choice)
    requires WellFormed(b) && Fits(b, c) && SpawnedTiles(b)
    ensures SpawnedTiles(Spawn(b, c))
  {
    if !Full(b) {
      SpawnCell(b, c);
    }
  }

  /** Starting a game is restarting it: score 0, status Playing and two
      spawned tiles, whatever the state before. */
  function Start(first: Choice, second: Choice): (st: State)
    requires first.index < Size * Size && second.index < Size * Size - 1
    ensures WellFormed(st.board) && st.score == 0 && st.status == Playing
    ensures Count(st.board) == 2 && SpawnedTiles(st.board)
    ensures st == Restart(first, second)
  {
    Restart(first, second)
  }

  /** One row slid toward index 0, or toward its last index. */
  function ProcessLine(row: seq<int>, score: int, status: Status, toEnd: bool): (o: RowOutcome)
    ensures o.status == status || o.status == Win
    ensures Sum(o.cells) == Sum(row)
    ensures |row| <= Size ==> |o.cells| == Size
  {
    ProcessRowShape(row, score, status);
    ProcessRowRightShape(row, score, status);
    if toEnd then ProcessRowRight(row, score, status) else ProcessRow(row, score, status)
  }

  /** Slides every row in order, threading the score and status through. */
  function SlideRows(rows: Board, score: int, status: Status, toEnd: bool): (r: State)
    ensures |r.board| == |rows|
    ensures r.status == status || r.status == Win
    decreases |rows|
  {
    if |rows| == 0 then State([], score, status)
    else
      var o := ProcessLine(rows[0], score, status, toEnd);
      var rest := SlideRows(rows[1..], o.score, o.status, toEnd);
      State([o.cells] + rest.board, rest.score, rest.status)
  }

  /** Rows of four cells slide to rows of four cells. */
  lemma {:induction false} SlideRowsShape(rows: Board, score: int, status: Status, toEnd: bool)
    requires forall i :: 0 <= i < |rows| ==> |rows[i]| == Size
    ensures forall i :: 0 <= i < |rows| ==> |SlideRows(rows, score, status, toEnd).board[i]| == Size
    decreases |rows|
  {
    if |rows| > 0 {
      var o := ProcessLine(rows[0], score, status, toEnd);
      ProcessRowShape(rows[0], score, status);
      ProcessRowRightShape(rows[0], score, status);
      SlideRowsShape(rows[1..], o.score, o.status, toEnd);
    }
  }

  /** The board, score and status after sliding in a direction: Left processes
      each row, Right each reversed row, and Up and Down do the same on the
      transposed board and transpose back. */
  function Slide(st: State, d: Direction): (r: State)
    requires WellFormed(st.board)
    ensures WellFormed(r.board)
  {
    match d
    case Left =>
      SlideRowsShape(st.board, st.score, st.status, false);
      SlideRows(st.board, st.score, st.status, false)
    case Right =>
      SlideRowsShape(st.board, st.score, st.status, true);
      SlideRows(st.board, st.score, st.status, true)
    case Up =>
      SlideRowsShape(Transpose(st.board), st.score, st.status, false);
      var t := SlideRows(Transpose(st.board), st.score, st.status, false);
      t.(board := Transpose(t.board))
    case Down =>
      SlideRowsShape(Transpose(st.board), st.score, st.status, true);
      var t := SlideRows(Transpose(st.board), st.score, st.status, true);
      t.(board := Transpose(t.board))
  }

  /** The result of a move and whether the board changed. */
  datatype MoveOutcome = MoveOutcome(state: State, moved: bool)

  /** The spawn choice is drawn for the board as it is after the slide. */
  predicate CanSpawnAfter(st: State, token: string, c: Choice)
    requires WellFormed(st.board)
  {
    ParseDirection(token).Some? ==> Fits(Slide(st, ParseDirection(token).value).board, c)
  }

  /** Attempts a move. The guard compares the status with a "game over"
      marker that no status carries, so it never stops a move, not even after
      a loss. An unknown token changes nothing. A known one slides the board
      and hands the slid state to Advance. */
  function Move(st: State, token: string, c: Choice): (r: MoveOutcome)
    requires WellFormed(st.board) && CanSpawnAfter(st, token, c)
    ensures WellFormed(r.state.board)
    ensures !r.moved ==> r.state == st
    ensures r.moved <==> r.state.board != st.board
  {
    if Name(st.status) == "game over" then MoveOutcome(st, false)
    else
      match ParseDirection(token)
      case None => MoveOutcome(st, false)
      case Some(d) =>
        SlideSettles(st, d);
        Advance(st, Slide(st, d), c)
  }

  /** The rest of a move once the slide has given state s: when the board
      did not change the move reports no change, otherwise a tile is spawned
      on the slid board and the terminal check runs. */
  function Advance(st: State, s: State, c: Choice): (r: MoveOutcome)
    requires WellFormed(st.board) && WellFormed(s.board) && Fits(s.board, c)
    requires Total(s.board) == Total(st.board)
    requires s.board == st.board ==> s == st
    ensures WellFormed(r.state.board)
    ensures !r.moved ==> r.state == st
    ensures r.moved <==> r.state.board != st.board
  {
    if s.board == st.board then MoveOutcome(s, false)
    else
      var b := Spawn(s.board, c);
      SpawnAfterChange(st.board, s.board, c);
      MoveOutcome(State(b, s.score, CheckGameOver(b, s.status)), true)
  }

  /** A slide keeps the total, and a slide that leaves the board as it was
      keeps the score and status too. */
  lemma SlideSettles(st: State, d: Direction)
    requires WellFormed(st.board)
    ensures Total(Slide(st, d).board) == Total(st.board)
    ensures Slide(st, d).board == st.board ==> Slide(st, d) == st
  {
    SlideTotal(st, d);
    if Slide(st, d).board == st.board {
      SlideUnchanged(st, d);
    }
  }

  /** A board that differs from an earlier one of the same total still
      differs from it after a spawn: a spawn either changes nothing or adds a
      2 or a 4 to the total. */
  lemma SpawnAfterChange(before: Board, after: Board, c: Choice)
    requires WellFormed(before) && WellFormed(after) && Fits(after, c)
    requires after != before && Total(after) == Total(before)
    ensures Spawn(after, c) != before
  {
    if !Full(after) {
      assert Total(Spawn(after, c)) != Total(before);
    }
  }

  /** A row sequence that slides back to itself kept its score and status. */
  lemma {:induction false} SlideRowsUnchanged(rows: Board, score: int, status: Status, toEnd: bool)
    requires SlideRows(rows, score, status, toEnd).board == rows
    ensures SlideRows(rows, score, status, toEnd).score == score
    ensures SlideRows(rows, score, status, toEnd).status == status
    decreases |rows|
  {
    if |rows| > 0 {
      var o := ProcessLine(rows[0], score, status, toEnd);
      var rest := SlideRows(rows[1..], o.score, o.status, toEnd);
      assert [o.cells] + rest.board == rows;
      assert o.cells == rows[0];
      assert rest.board == rows[1..];
      if toEnd {
        ProcessRowRightUnchanged(rows[0], score, status);
      } else {
        ProcessRowUnchanged(rows[0], score, status);
      }
      SlideRowsUnchanged(rows[1..], score, status, toEnd);
    }
  }

  /** A slide that leaves the board as it was leaves score and status too. */
  lemma SlideUnchanged(st: State, d: Direction)
    requires WellFormed(st.board) && Slide(st, d).board == st.board
    ensures Slide(st, d) == st
  {
    match d
    case Left => SlideRowsUnchanged(st.board, st.score, st.status, false);
    case Right => SlideRowsUnchanged(st.board, st.score, st.status, true);
    case Up =>
      var t := SlideRows(Transpose(st.board), st.score, st.status, false);
      SlideRowsShape(Transpose(st.board), st.score, st.status, false);
      TransposeTwice(t.board);
      SlideRowsUnchanged(Transpose(st.board), st.score, st.status, false);
    case Down =>
      var t := SlideRows(Transpose(st.board), st.score, st.status, true);
      SlideRowsShape(Transpose(st.board), st.score, st.status, true);
      TransposeTwice(t.board);
      SlideRowsUnchanged(Transpose(st.board), st.score, st.status, true);
  }

  /** Sliding rows keeps the total of the tile values. */
  lemma {:induction false} SlideRowsTotal(rows: Board, score: int, status: Status, toEnd: bool)
    ensures Total(SlideRows(rows, score, status, toEnd).board) == Total(rows)
    decreases |rows|
  {
    if |rows| > 0 {
      var o := ProcessLine(rows[0], score, status, toEnd);
      ProcessRowShape(rows[0], score, status);
      ProcessRowRightShape(rows[0], score, status);
      var rest := SlideRows(rows[1..], o.score, o.status, toEnd);
      SlideRowsTotal(rows[1..], o.score, o.status, toEnd);
      assert ([o.cells] + rest.board)[1..] == rest.board;
    }
  }

  lemma RowSum(s: seq<int>)
    requires |s| == Size
    ensures Sum(s) == s[0] + s[1] + s[2] + s[3]
  {
    assert s[1..][1..] == s[2..];
    assert s[2..][1..] == s[3..];
    assert s[3..][1..] == [];
    assert Sum(s[3..]) == s[3];
    assert Sum(s[2..]) == s[2] + s[3];
    assert Sum(s[1..]) == s[1] + s[2] + s[3];
  }

  /** The total of a board is the sum of its sixteen cells. */
  lemma BoardTotal(b: Board)
    requires WellFormed(b)
    ensures Total(b) == b[0][0] + b[0][1] + b[0][2] + b[0][3]
                      + b[1][0] + b[1][1] + b[1][2] + b[1][3]
                      + b[2][0] + b[2][1] + b[2][2] + b[2][3]
                      + b[3][0] + b[3][1] + b[3][2] + b[3][3]
  {
    RowSum(b[0]);
    RowSum(b[1]);
    RowSum(b[2]);
    RowSum(b[3]);
    assert b[1..][1..] == b[2..];
    assert b[2..][1..] == b[3..];
    assert b[3..][1..] == [];
    assert Total(b[3..]) == Sum(b[3]);
    assert Total(b[2..]) == Sum(b[2]) + Sum(b[3]);
    assert Total(b[1..]) == Sum(b[1]) + Sum(b[2]) + Sum(b[3]);
  }

  lemma TransposeTotal(b: Board)
    requires WellFormed(b)
    ensures Total(Transpose(b)) == Total(b)
  {
    BoardTotal(b);
    BoardTotal(Transpose(b));
  }

  /** Sliding in any direction keeps the total of the tile values. */
  lemma SlideTotal(st: State, d: Direction)
    requires WellFormed(st.board)
    ensures Total(Slide(st, d).board) == Total(st.board)
  {
    match d
    case Left => SlideRowsTotal(st.board, st.score, st.status, false);
    case Right => SlideRowsTotal(st.board, st.score, st.status, true);
    case Up =>
      var t := SlideRows(Transpose(st.board), st.score, st.status, false);
      SlideRowsShape(Transpose(st.board), st.score, st.status, false);
      SlideRowsTotal(Transpose(st.board), st.score, st.status, false);
      TransposeTotal(st.board);
      TransposeTotal(t.board);
    case Down =>
      var t := SlideRows(Transpose(st.board), st.score, st.status, true);
      SlideRowsShape(Transpose(st.board), st.score, st.status, true);
      SlideRowsTotal(Transpose(st.board), st.score, st.status, true);
      TransposeTotal(st.board);
      TransposeTotal(t.board);
  }
}

=== FILE: grid.dfy ===
/**
 The 4x4 board: its shape, the transpose used by vertical moves, the count
 and total of its tiles, and the row-major list of its empty cells.
 */
module Grid {
  import opened Tiles

  type Board = seq<seq<int>>

  /** A cell address: row index, then column index. */
  datatype Pos = Pos(row: nat, col: nat)

  /** The board has four rows of four cells. */
  predicate WellFormed(b: Board)
  {
    |b| == Size && forall i :: 0 <= i < Size ==> |b[i]| == Size
  }

  predicate InBounds(p: Pos)
  {
    p.row < Size && p.col < Size
  }

  /** Cell p comes before cell q in the row-major scan order. */
  predicate Before(p: Pos, q: Pos)
  {
    p.row < q.row || (p.row == q.row && p.col < q.col)
  }

  predicate IsEmpty(b: Board, p: Pos)
    requires WellFormed(b) && InBounds(p)
  {
    b[p.row][p.col] == 0
  }

  /** No cell of the board is empty. */
  predicate Full(b: Board)
    requires WellFormed(b)
  {
    forall i, j :: 0 <= i < Size && 0 <= j < Size ==> b[i][j] != 0
  }

  predicate NonNegative(b: Board)
    requires WellFormed(b)
  {
    forall i, j :: 0 <= i < Size && 0 <= j < Size ==> b[i][j] >= 0
  }

  /** The board with every cell empty. */
  function EmptyBoard(): (b: Board)
    ensures WellFormed(b)
    ensures forall i, j :: 0 <= i < Size && 0 <= j < Size ==> b[i][j] == 0
  {
    seq(Size, _ => Zeros(Size))
  }

  /** Swaps rows and columns: cell (i, j) of the result is cell (j, i). */
  function Transpose(b: Board): (t: Board)
    requires WellFormed(b)
    ensures WellFormed(t)
    ensures forall i, j :: 0 <= i < Size && 0 <= j < Size ==> t[i][j] == b[j][i]
  {
    seq(Size, i requires 0 <= i < Size => seq(Size, j requires 0 <= j < Size => b[j][i]))
  }

  /** Transposing twice gives back the board. */
  lemma TransposeTwice(b: Board)
    requires WellFormed(b)
    ensures Transpose(Transpose(b)) == b
  {
    var t := Transpose(Transpose(b));
    forall i | 0 <= i < Size ensures t[i] == b[i] {
      assert forall j :: 0 <= j < Size ==> t[i][j] == b[i][j];
    }
  }

  /** A full board is a board each of whose rows has no empty cell. */
  lemma FullRows(b: Board)
    requires WellFormed(b) && Full(b)
    ensures forall i :: 0 <= i < |b| ==> AllNonZero(b[i])
  {
  }

  /** A board whose transpose is full is full. */
  lemma FullTranspose(b: Board)
    requires WellFormed(b) && Full(Transpose(b))
    ensures Full(b)
  {
    var t := Transpose(b);
    forall i, j | 0 <= i < Size && 0 <= j < Size ensures b[i][j] != 0 {
      assert t[j][i] == b[i][j];
    }
  }

  /** Number of occupied cells over a sequence of rows. */
  function Count(rows: Board): nat
  {
    if |rows| == 0 then 0 else NonZeroCount(rows[0]) + Count(rows[1..])
  }

  /** Sum of the tile values over a sequence of rows. */
  function Total(rows: Board): int
  {
    if |rows| == 0 then 0 else Sum(rows[0]) + Total(rows[1..])
  }

  /** Replacing one row changes the count and the total by that row's
      difference. */
  lemma {:induction false} ReplaceRow(rows: Board, i: nat, r: seq<int>)
    requires i < |rows|
    ensures Count(rows[i := r]) == Count(rows) - NonZeroCount(rows[i]) + NonZeroCount(r)
    ensures Total(rows[i := r]) == Total(rows) - Sum(rows[i]) + Sum(r)
  {
    if i == 0 {
      assert rows[i := r][1..] == rows[1..];
    } else {
      assert rows[i := r][1..] == rows[1..][i - 1 := r];
      ReplaceRow(rows[1..], i - 1, r);
    }
  }

  /** The board with one cell set to a value. */
  function Place(b: Board, p: Pos, v: int): (r: Board)
    requires WellFormed(b) && InBounds(p)
    ensures WellFormed(r)
    ensures r[p.row][p.col] == v
    ensures forall i, j :: 0 <= i < Size && 0 <= j < Size && (i != p.row || j != p.col) ==> r[i][j] == b[i][j]
  {
    b[p.row := b[p.row][p.col := v]]
  }

  /** Filling an empty cell with a tile adds one to the count of occupied
      cells and its value to the total. */
  lemma PlaceCounts(b: Board, p: Pos, v: int)
    requires WellFormed(b) && InBounds(p) && IsEmpty(b, p) && v != 0
    ensures Count(Place(b, p, v)) == Count(b) + 1
    ensures Total(Place(b, p, v)) == Total(b) + v
  {
    ReplaceRow(b, p.row, b[p.row][p.col := v]);
    NonZeroCountFill(b[p.row], p.col, v);
    SumUpdate(b[p.row], p.col, v);
  }

  /** The empty cells of row i from column j on, in column order. */
  function EmptyInRow(b: Board, i: nat, j: nat): (cells: seq<Pos>)
    requires WellFormed(b) && i < Size && j <= Size
    ensures forall p :: p in cells ==> p.row == i && j <= p.col < Size && b[i][p.col] == 0
    ensures |cells| + NonZeroCount(b[i][j..]) == Size - j
    decreases Size - j
  {
    if j == Size then []
    else
      assert b[i][j..][1..] == b[i][j + 1..];
      (if b[i][j] == 0 then [Pos(i, j)] else []) + EmptyInRow(b, i, j + 1)
  }

  /** The empty cells of rows i and below, in row-major order. */
  function EmptyFrom(b: Board, i: nat): (cells: seq<Pos>)
    requires WellFormed(b) && i <= Size
    ensures forall p :: p in cells ==> i <= p.row < Size && p.col < Size && b[p.row][p.col] == 0
    ensures |cells| + Count(b[i..]) == Size * (Size - i)
    decreases Size - i
  {
    if i == Size then []
    else
      assert b[i..][1..] == b[i + 1..];
      assert b[i][0..] == b[i];
      EmptyInRow(b, i, 0) + EmptyFrom(b, i + 1)
  }

  /** Every empty cell of the board, in row-major scan order: the cells the
      tile spawner chooses from. */
  function EmptyCells(b: Board): (cells: seq<Pos>)
    requires WellFormed(b)
    ensures forall p :: p in cells ==> InBounds(p) && IsEmpty(b, p)
    ensures |cells| + Count(b) == Size * Size
  {
    assert b[0..] == b;
    EmptyFrom(b, 0)
  }

  /** Each cell of the list comes before every later one in row-major order. */
  predicate Ordered(cells: seq<Pos>)
  {
    forall k, l :: 0 <= k < l < |cells| ==> Before(cells[k], cells[l])
  }

  /** Two ordered lists, the first wholly before the second, concatenate to
      an ordered list. */
  lemma ConcatOrdered(a: seq<Pos>, b: seq<Pos>)
    requires Ordered(a) && Ordered(b)
    requires forall k, l :: 0 <= k < |a| && 0 <= l < |b| ==> Before(a[k], b[l])
    ensures Ordered(a + b)
  {
    forall k, l | 0 <= k < l < |a + b| ensures Before((a + b)[k], (a + b)[l]) {
      if l < |a| {
        assert (a + b)[k] == a[k] && (a + b)[l] == a[l];
      } else if k >= |a| {
        assert (a + b)[k] == b[k - |a|] && (a + b)[l] == b[l - |a|];
      } else {
        assert (a + b)[k] == a[k] && (a + b)[l] == b[l - |a|];
      }
    }
  }

  /** Every cell of the list lies in row i, at column j or right of it. */
  predicate InRowFrom(cells: seq<Pos>, i: nat, j: nat)
  {
    forall k :: 0 <= k < |cells| ==> cells[k].row == i && j <= cells[k].col
  }

  /** Every cell of the list lies in row i or below it. */
  predicate RowsFrom(cells: seq<Pos>, i: nat)
  {
    forall k :: 0 <= k < |cells| ==> i <= cells[k].row
  }

  lemma ConcatRowsFrom(a: seq<Pos>, b: seq<Pos>, i: nat)
    requires RowsFrom(a, i) && RowsFrom(b, i)
    ensures RowsFrom(a + b, i)
  {
    forall k | 0 <= k < |a + b| ensures i <= (a + b)[k].row {
      if k < |a| {
        assert (a + b)[k] == a[k];
      } else {
        assert (a + b)[k] == b[k - |a|];
      }
    }
  }

  lemma {:induction false} EmptyInRowComplete(b: Board, i: nat, j: nat)
    requires WellFormed(b) && i < Size && j <= Size
    ensures forall c :: j <= c < Size && b[i][c] == 0 ==> Pos(i, c) in EmptyInRow(b, i, j)
    decreases Size - j
  {
    if j < Size {
      EmptyInRowComplete(b, i, j + 1);
      var head := if b[i][j] == 0 then [Pos(i, j)] else [];
      assert EmptyInRow(b, i, j) == head + EmptyInRow(b, i, j + 1);
      assert b[i][j] == 0 ==> Pos(i, j) in head;
    }
  }

  /** A cell put in front of the later cells of its row keeps the list
      ordered. */
  lemma ConsInRow(i: nat, j: nat, rest: seq<Pos>)
    requires Ordered(rest) && InRowFrom(rest, i, j + 1)
    ensures Ordered([Pos(i, j)] + rest) && InRowFrom([Pos(i, j)] + rest, i, j)
  {
    var cells := [Pos(i, j)] + rest;
    forall k | 0 <= k < |cells| ensures cells[k].row == i && j <= cells[k].col {
      if k > 0 {
        assert cells[k] == rest[k - 1];
      }
    }
    forall k, l | 0 <= k < l < |cells| ensures Before(cells[k], cells[l]) {
      assert cells[l] == rest[l - 1];
      if k > 0 {
        assert cells[k] == rest[k - 1];
      }
    }
  }

  lemma {:induction false} EmptyInRowOrdered(b: Board, i: nat, j: nat)
    requires WellFormed(b) && i < Size && j <= Size
    ensures var cells := EmptyInRow(b, i, j);
      && Ordered(cells)
      && InRowFrom(cells, i, j)
    decreases Size - j
  {
    if j < Size {
      var rest := EmptyInRow(b, i, j + 1);
      EmptyInRowOrdered(b, i, j + 1);
      if b[i][j] == 0 {
        assert EmptyInRow(b, i, j) == [Pos(i, j)] + rest;
        ConsInRow(i, j, rest);
      } else {
        assert EmptyInRow(b, i, j) == [] + rest;
        assert [] + rest == rest;
      }
    } else {
      assert EmptyInRow(b, i, j) == [];
    }
  }

  lemma {:induction false} EmptyFromComplete(b: Board, i: nat)
    requires WellFormed(b) && i <= Size
    ensures forall r, c {:trigger Pos(r, c) in EmptyFrom(b, i)} :: i <= r < Size && 0 <= c < Size && b[r][c] == 0 ==> Pos(r, c) in EmptyFrom(b, i)
    decreases Size - i
  {
    if i < Size {
      EmptyInRowComplete(b, i, 0);
      EmptyFromComplete(b, i + 1);
      assert EmptyFrom(b, i) == EmptyInRow(b, i, 0) + EmptyFrom(b, i + 1);
    }
  }

  lemma {:induction false} EmptyFromOrdered(b: Board, i: nat)
    requires WellFormed(b) && i <= Size
    ensures var cells := EmptyFrom(b, i);
      && Ordered(cells)
      && RowsFrom(cells, i)
    decreases Size - i
  {
    if i < Size {
      var head := EmptyInRow(b, i, 0);
      var rest := EmptyFrom(b, i + 1);
      assert EmptyFrom(b, i) == head + rest;
      EmptyInRowOrdered(b, i, 0);
      EmptyFromOrdered(b, i + 1);
      ConcatOrdered(head, rest);
      ConcatRowsFrom(head, rest, i);
    }
  }

  /** The list holds every empty cell of the board. */
  lemma EmptyCellsComplete(b: Board)
    requires WellFormed(b)
    ensures forall r, c {:trigger Pos(r, c) in EmptyCells(b)} :: 0 <= r < Size && 0 <= c < Size && b[r][c] == 0 ==> Pos(r, c) in EmptyCells(b)
  {
    EmptyFromComplete(b, 0);
  }

  /** The list is in strictly increasing row-major scan order, so it holds
      each cell once. */
  lemma EmptyCellsOrdered(b: Board)
    requires WellFormed(b)
    ensures Ordered(EmptyCells(b))
  {
    EmptyFromOrdered(b, 0);
  }

  /** The board has an empty cell exactly when the list of empty cells is
      not empty. */
  lemma EmptyCellsNoneIffFull(b: Board)
    requires WellFormed(b)
    ensures |EmptyCells(b)| == 0 <==> Full(b)
  {
    var cells := EmptyCells(b);
    EmptyCellsComplete(b);
    if |cells| == 0 {
      forall i, j | 0 <= i < Size && 0 <= j < Size ensures b[i][j] != 0 {
        assert Pos(i, j) !in cells;
      }
    }
  }

  /** In an ordered list, an entry that nothing precedes is the head. */
  lemma OrderedHead(cells: seq<Pos>, p: Pos)
    requires Ordered(cells) && p in cells && !Before(cells[0], p)
    ensures cells[0] == p
  {
    var k :| 0 <= k < |cells| && cells[k] == p;
    if k > 0 {
      assert Before(cells[0], cells[k]);
    }
  }

  /** The first entry of the list of empty cells is the first empty cell in
      row-major order. */
  lemma FirstEmptyCell(b: Board, p: Pos)
    requires WellFormed(b) && InBounds(p) && IsEmpty(b, p)
    requires forall q :: InBounds(q) && Before(q, p) ==> !IsEmpty(b, q)
    ensures |EmptyCells(b)| > 0 && EmptyCells(b)[0] == p
  {
    var cells := EmptyCells(b);
    EmptyCellsComplete(b);
    EmptyCellsOrdered(b);
    assert Pos(p.row, p.col) in cells;
    assert cells[0] in cells;
    OrderedHead(cells, p);
  }
}

=== FILE: properties.dfy ===
/**
 Properties of the game engine that relate several operations: what a move
 does to the score, the tiles and the status, when no move is possible, and
 how the directions relate to each other.
 */
module GameProperties {
  import opened Tiles
  import opened GameStatus
  import opened Grid
  import opened RowProcessor
  import opened Spawner
  import opened Terminal
  import opened Game

  /** An unrecognised direction token falls through: nothing changes and the
      move reports no change. */
  lemma MoveUnknownToken(st: State, token: string, c: Choice)
    requires WellFormed(st.board)
    requires token != "Up" && token != "Down" && token != "Left" && token != "Right"
    ensures Move(st, token, c) == MoveOutcome(st, false)
  {
  }

  /** A lost game is not blocked: a move whose slide changes the board is
      carried out even when the status is already Lose. */
  lemma LoseDoesNotBlockMove(st: State, d: Direction, c: Choice)
    requires WellFormed(st.board) && st.status == Lose
    requires Fits(Slide(st, d).board, c)
    requires Slide(st, d).board != st.board
    ensures var token := match d case Up => "Up" case Down => "Down" case Left => "Left" case Right => "Right";
      Move(st, token, c).moved
  {
  }

  /** A move in a recognised direction: when the slide changes the board, the
      spawn and the terminal check follow on the slid board; otherwise the
      state is kept. */
  lemma MoveSteps(st: State, d: Direction, token: string, c: Choice)
    requires WellFormed(st.board) && ParseDirection(token) == Some(d)
    requires Fits(Slide(st, d).board, c)
    ensures var s := Slide(st, d);
      Move(st, token, c) ==
        if s.board == st.board then MoveOutcome(st, false)
        else MoveOutcome(State(Spawn(s.board, c), s.score, CheckGameOver(Spawn(s.board, c), s.status)), true)
  {
    NameInjective(st.status, st.status);
    SlideSettles(st, d);
    assert Move(st, token, c) == Advance(st, Slide(st, d), c);
  }

  /** The game-over check runs on every move that changes the board, after
      the spawn: the move ends in Lose exactly when the spawned board is
      stuck or the status was already Lose, and on a board that is not
      stuck the status the slide left (Win included) survives. */
  lemma MoveEndsWithGameOverCheck(st: State, d: Direction, token: string, c: Choice)
    requires WellFormed(st.board) && ParseDirection(token) == Some(d)
    requires Fits(Slide(st, d).board, c)
    ensures var r := Move(st, token, c);
      && (r.moved ==> (r.state.status == Lose <==> Stuck(r.state.board) || Slide(st, d).status == Lose))
      && (r.moved && !Stuck(r.state.board) ==> r.state.status == Slide(st, d).status)
  {
    MoveSteps(st, d, token, c);
  }

  /** What an effective move does: the slide, then one spawn on the slid
      board, then the terminal check. The slid board always has an empty
      cell, so the move ends with exactly one more tile than the slide left. */
  lemma MoveSpawnsOneTile(st: State, d: Direction, token: string, c: Choice)
    requires WellFormed(st.board) && ParseDirection(token) == Some(d)
    requires Fits(Slide(st, d).board, c)
    ensures var r := Move(st, token, c);
      var s := Slide(st, d);
      r.moved ==>
        && r.state.board == Spawn(s.board, c)
        && r.state.score == s.score
        && !Full(s.board)
        && Count(r.state.board) == Count(s.board) + 1
  {
    MoveSteps(st, d, token, c);
    if Full(Slide(st, d).board) {
      SlideFullUnchanged(st, d);
    }
  }

  /** A move leaves the status as it was, sets Win, or sets Lose; Lose is
      set only on a full board with no equal neighbours, and it replaces Win
      as readily as any other status. */
  lemma MoveStatus(st: State, token: string, c: Choice)
    requires WellFormed(st.board) && CanSpawnAfter(st, token, c)
    ensures var r := Move(st, token, c);
      && (r.state.status == st.status || r.state.status == Win || r.state.status == Lose)
      && (r.state.status == Lose && st.status != Lose ==> Stuck(r.state.board))
  {
    match ParseDirection(token)
    case None =>
      NameInjective(st.status, st.status);
    case Some(d) =>
      MoveSteps(st, d, token, c);
      SlideStatus(st, d);
  }

  /** The terminal check does not protect a win: when the slide forms a
      2048 but the spawn leaves a full board with no equal neighbours, the
      move ends with Lose. */
  lemma WinOverwrittenByLose(st: State, d: Direction, token: string, c: Choice)
    requires WellFormed(st.board) && ParseDirection(token) == Some(d)
    requires Fits(Slide(st, d).board, c)
    requires Slide(st, d).status == Win && Slide(st, d).board != st.board
    requires Stuck(Spawn(Slide(st, d).board, c))
    ensures Move(st, token, c).moved && Move(st, token, c).state.status == Lose
  {
    MoveSteps(st, d, token, c);
  }

  /** A left slide from a fresh score that forms a 2048 in the first row
      and finds the other rows blocked changes only the first row. */
  lemma SlideLeftFirstRowOnly(b: Board, q0: seq<int>)
    requires WellFormed(b)
    requires ProcessRow(b[0], 0, Playing) == RowOutcome(q0, WinningTile, Win)
    requires forall i :: 1 <= i < Size ==> AllNonZero(b[i]) && NoAdjacentEqual(b[i])
    ensures Slide(State(b, 0, Playing), Left) == State([q0] + b[1..], WinningTile, Win)
  {
    var rest := b[1..];
    assert forall i :: 0 <= i < |rest| ==> rest[i] == b[i + 1];
    SlideRowsBlocked(rest, WinningTile, Win, false);
  }

  /** With index 0 the spawn fills the first empty cell in row-major order. */
  lemma SpawnFirstEmpty(b: Board, p: Pos, c: Choice)
    requires WellFormed(b) && InBounds(p) && IsEmpty(b, p) && c.index == 0
    requires forall q :: InBounds(q) && Before(q, p) ==> !IsEmpty(b, q)
    ensures Fits(b, c) && Spawn(b, c) == Place(b, p, TileValue(c))
  {
    FirstEmptyCell(b, p);
  }

  /** A board is stuck when each row is full without equal neighbours and
      no column holds two equal neighbours. */
  lemma StuckFromRows(a: seq<int>, b: seq<int>, c: seq<int>, d: seq<int>)
    requires |a| == Size && |b| == Size && |c| == Size && |d| == Size
    requires AllNonZero(a) && AllNonZero(b) && AllNonZero(c) && AllNonZero(d)
    requires NoAdjacentEqual(a) && NoAdjacentEqual(b) && NoAdjacentEqual(c) && NoAdjacentEqual(d)
    requires forall j :: 0 <= j < Size ==> a[j] != b[j] && b[j] != c[j] && c[j] != d[j]
    ensures Stuck([a, b, c, d])
  {
    var f := [a, b, c, d];
    assert forall i :: 0 <= i < Size ==> AllNonZero(f[i]) && NoAdjacentEqual(f[i]);
  }

  /** The board of the witness below after the spawn: the gap at the end of
      the first row holds a 2 and nothing can move. */
  lemma WitnessSpawnedBoardStuck(r1: seq<int>, r2: seq<int>, r3: seq<int>)
    requires r1 == [8, 16, 8, 16] && r2 == [16, 8, 16, 8] && r3 == [8, 16, 8, 16]
    ensures var s := [[2048, 2, 4, 0], r1, r2, r3];
      WellFormed(s) && InBounds(Pos(0, 3)) && Stuck(Place(s, Pos(0, 3), 2))
  {
    var s := [[2048, 2, 4, 0], r1, r2, r3];
    var top := [2048, 2, 4, 2];
    var t := s[0][3 := 2];
    assert t == top;
    assert Place(s, Pos(0, 3), 2) == s[0 := t];
    assert s[0 := t] == [top, r1, r2, r3];
    StuckFromRows(top, r1, r2, r3);
  }

  /** The first row of the witness below: the two 1024s merge into 2048,
      which scores 2048 and sets Win. */
  lemma WitnessWinningRow(r0: seq<int>)
    requires r0 == [1024, 1024, 2, 4]
    ensures ProcessRow(r0, 0, Playing) == RowOutcome([2048, 2, 4, 0], WinningTile, Win)
  {
    assert AllNonZero(r0);
    assert r0[0] == r0[1] && r0[2..] == [2, 4];
    assert Merge([2, 4]) == Merged([2, 4], []) by {
      assert [2, 4][1..] == [4] && [4][1..] == [];
    }
    assert Merge(r0) == Merged([2048, 2, 4], [2048]);
    assert Pad([2048, 2, 4]) == [2048, 2, 4, 0];
    assert Sum([2048]) == 2048;
  }

  /** The left slide of the witness below changes only the first row. */
  lemma WitnessSlide(r0: seq<int>, q0: seq<int>, r1: seq<int>, r2: seq<int>, r3: seq<int>)
    requires |r0| == Size && ProcessRow(r0, 0, Playing) == RowOutcome(q0, WinningTile, Win)
    requires r1 == [8, 16, 8, 16] && r2 == [16, 8, 16, 8] && r3 == [8, 16, 8, 16]
    ensures WellFormed([r0, r1, r2, r3])
    ensures Slide(State([r0, r1, r2, r3], 0, Playing), Left) == State([q0, r1, r2, r3], WinningTile, Win)
  {
    var b := [r0, r1, r2, r3];
    assert WellFormed(b);
    assert AllNonZero(r1) && AllNonZero(r2) && AllNonZero(r3);
    assert NoAdjacentEqual(r1) && NoAdjacentEqual(r2) && NoAdjacentEqual(r3);
    assert b[0] == r0 && b[1] == r1 && b[2] == r2 && b[3] == r3;
    SlideLeftFirstRowOnly(b, q0);
    assert [q0] + b[1..] == [q0, r1, r2, r3];
  }

  /** The left slide of the witness below, on literal rows. */
  lemma WitnessSlideResult()
    ensures WellFormed([[1024, 1024, 2, 4], [8, 16, 8, 16], [16, 8, 16, 8], [8, 16, 8, 16]])
    ensures Slide(State([[1024, 1024, 2, 4], [8, 16, 8, 16], [16, 8, 16, 8], [8, 16, 8, 16]], 0, Playing), Left)
      == State([[2048, 2, 4, 0], [8, 16, 8, 16], [16, 8, 16, 8], [8, 16, 8, 16]], WinningTile, Win)
  {
    var r0, q0 := [1024, 1024, 2, 4], [2048, 2, 4, 0];
    WitnessWinningRow(r0);
    WitnessSlide(r0, q0, [8, 16, 8, 16], [16, 8, 16, 8], [8, 16, 8, 16]);
  }

  /** The spawn of the witness below: the draw fits, and the 2 it places
      leaves a stuck board. */
  lemma WitnessSpawnResult()
    ensures var s := [[2048, 2, 4, 0], [8, 16, 8, 16], [16, 8, 16, 8], [8, 16, 8, 16]];
      WellFormed(s) && Fits(s, Choice(0, false)) && Stuck(Spawn(s, Choice(0, false)))
  {
    var r1, r2, r3 := [8, 16, 8, 16], [16, 8, 16, 8], [8, 16, 8, 16];
    WitnessSpawnedBoardStuck(r1, r2, r3);
    SpawnFirstEmpty([[2048, 2, 4, 0], r1, r2, r3], Pos(0, 3), Choice(0, false));
  }

  /** The requirements of WinOverwrittenByLose can all be met: on this board
      Left merges the two 1024s into 2048 and sets Win, and the spawn fills
      the last gap with a 2, which leaves nothing to move. */
  lemma WitnessMeetsRequirements()
    ensures var st := State([[1024, 1024, 2, 4], [8, 16, 8, 16], [16, 8, 16, 8], [8, 16, 8, 16]], 0, Playing);
      var c := Choice(0, false);
      && WellFormed(st.board) && ParseDirection("Left") == Some(Left)
      && Fits(Slide(st, Left).board, c)
      && Slide(st, Left).status == Win && Slide(st, Left).board != st.board
      && Stuck(Spawn(Slide(st, Left).board, c))
  {
    WitnessSlideResult();
    WitnessSpawnResult();
    var b := [[1024, 1024, 2, 4], [8, 16, 8, 16], [16, 8, 16, 8], [8, 16, 8, 16]];
    var s := [[2048, 2, 4, 0], [8, 16, 8, 16], [16, 8, 16, 8], [8, 16, 8, 16]];
    assert s != b by { assert s[0][0] != b[0][0]; }
  }

  /** A game in progress that a single Left move loses after forming a 2048:
      the game-over check turns the Win into Lose. */
  lemma WinOverwrittenByLoseWitness()
    ensures var st := State([[1024, 1024, 2, 4], [8, 16, 8, 16], [16, 8, 16, 8], [8, 16, 8, 16]], 0, Playing);
      var c := Choice(0, false);
      && WellFormed(st.board) && Fits(Slide(st, Left).board, c)
      && Move(st, "Left", c).moved && Move(st, "Left", c).state.status == Lose
  {
    var st := State([[1024, 1024, 2, 4], [8, 16, 8, 16], [16, 8, 16, 8], [8, 16, 8, 16]], 0, Playing);
    WitnessMeetsRequirements();
    WinOverwrittenByLose(st, Left, "Left", Choice(0, false));
  }

  lemma SlideStatus(st: State, d: Direction)
    requires WellFormed(st.board)
    ensures Slide(st, d).status == st.status || Slide(st, d).status == Win
  {
  }

  /** Sliding rows of non-negative tiles keeps them non-negative and never
      lowers the score. */
  lemma {:induction false} SlideRowsNonNegative(rows: Board, score: int, status: Status, toEnd: bool)
    requires forall i :: 0 <= i < |rows| ==> AllNonNegative(rows[i])
    ensures var r := SlideRows(rows, score, status, toEnd);
      && r.score >= score
      && (forall i :: 0 <= i < |r.board| ==> AllNonNegative(r.board[i]))
    decreases |rows|
  {
    if |rows| > 0 {
      var o := ProcessLine(rows[0], score, status, toEnd);
      assert AllNonNegative(rows[0]);
      ProcessLineNonNegative(rows[0], score, status, toEnd);
      assert forall i :: 0 <= i < |rows[1..]| ==> rows[1..][i] == rows[i + 1];
      SlideRowsNonNegative(rows[1..], o.score, o.status, toEnd);
      var rest := SlideRows(rows[1..], o.score, o.status, toEnd);
      assert SlideRows(rows, score, status, toEnd).board == [o.cells] + rest.board;
      assert forall i :: 1 <= i < |rows| ==> ([o.cells] + rest.board)[i] == rest.board[i - 1];
    }
  }

  /** One row of non-negative tiles slides to non-negative tiles and does not
      lower the score, in either direction. */
  lemma ProcessLineNonNegative(row: seq<int>, score: int, status: Status, toEnd: bool)
    requires AllNonNegative(row)
    ensures var o := ProcessLine(row, score, status, toEnd);
      o.score >= score && AllNonNegative(o.cells)
  {
    if toEnd {
      ProcessRowRightShape(row, score, status);
    } else {
      ProcessRowShape(row, score, status);
      ProcessRowScore(row, score, status);
    }
  }

  lemma RowsNonNegative(b: Board)
    requires WellFormed(b)
    ensures NonNegative(b) <==> forall i :: 0 <= i < |b| ==> AllNonNegative(b[i])
  {
    if forall i :: 0 <= i < |b| ==> AllNonNegative(b[i]) {
      forall i, j | 0 <= i < Size && 0 <= j < Size ensures b[i][j] >= 0 {
        assert AllNonNegative(b[i]);
      }
    }
  }

  /** On a board of non-negative tiles, a slide never lowers the score and
      leaves the tiles non-negative. */
  lemma SlideNonNegative(st: State, d: Direction)
    requires WellFormed(st.board) && NonNegative(st.board)
    ensures Slide(st, d).score >= st.score
    ensures NonNegative(Slide(st, d).board)
  {
    var s := Slide(st, d);
    RowsNonNegative(st.board);
    RowsNonNegative(Transpose(st.board));
    match d
    case Left => SlideRowsNonNegative(st.board, st.score, st.status, false);
    case Right => SlideRowsNonNegative(st.board, st.score, st.status, true);
    case Up =>
      var t := SlideRows(Transpose(st.board), st.score, st.status, false);
      SlideRowsShape(Transpose(st.board), st.score, st.status, false);
      SlideRowsNonNegative(Transpose(st.board), st.score, st.status, false);
      RowsNonNegative(t.board);
    case Down =>
      var t := SlideRows(Transpose(st.board), st.score, st.status, true);
      SlideRowsShape(Transpose(st.board), st.score, st.status, true);
      SlideRowsNonNegative(Transpose(st.board), st.score, st.status, true);
      RowsNonNegative(t.board);
  }

  /** On a board of non-negative tiles the score never decreases, and the
      tiles stay non-negative. */
  lemma MoveScoreNeverDecreases(st: State, token: string, c: Choice)
    requires WellFormed(st.board) && CanSpawnAfter(st, token, c) && NonNegative(st.board)
    ensures Move(st, token, c).state.score >= st.score
    ensures NonNegative(Move(st, token, c).state.board)
  {
    match ParseDirection(token)
    case None =>
      NameInjective(st.status, st.status);
    case Some(d) =>
      var s := Slide(st, d);
      MoveSteps(st, d, token, c);
      SlideNonNegative(st, d);
      if s.board != st.board {
        SpawnNonNegative(s.board, c);
      }
  }

  /** A full row of four with no equal neighbours slides, either way, to
      itself with score and status kept. */
  lemma ProcessLineBlocked(row: seq<int>, score: int, status: Status, toEnd: bool)
    requires |row| == Size && AllNonZero(row) && NoAdjacentEqual(row)
    ensures ProcessLine(row, score, status, toEnd) == RowOutcome(row, score, status)
  {
    if toEnd {
      ProcessRowRightBlocked(row, score, status);
    } else {
      ProcessRowBlocked(row, score, status);
    }
  }

  lemma {:induction false} SlideRowsBlocked(rows: Board, score: int, status: Status, toEnd: bool)
    requires forall i :: 0 <= i < |rows| ==> |rows[i]| == Size && AllNonZero(rows[i]) && NoAdjacentEqual(rows[i])
    ensures SlideRows(rows, score, status, toEnd) == State(rows, score, status)
    decreases |rows|
  {
    if |rows| > 0 {
      var o := ProcessLine(rows[0], score, status, toEnd);
      ProcessLineBlocked(rows[0], score, status, toEnd);
      assert forall i :: 0 <= i < |rows[1..]| ==> rows[1..][i] == rows[i + 1];
      SlideRowsBlocked(rows[1..], o.score, o.status, toEnd);
      assert [rows[0]] + rows[1..] == rows;
    }
  }

  lemma RowsNonZeroSplit(first: seq<int>, rest: Board)
    requires forall i :: 0 <= i < |[first] + rest| ==> AllNonZero(([first] + rest)[i])
    ensures AllNonZero(first)
    ensures forall i :: 0 <= i < |rest| ==> AllNonZero(rest[i])
  {
    assert ([first] + rest)[0] == first;
    forall i | 0 <= i < |rest| ensures AllNonZero(rest[i]) {
      assert ([first] + rest)[i + 1] == rest[i];
    }
  }

  /** Rows of four that all slide to rows without an empty cell were not
      changed by the slide. */
  lemma {:induction false} SlideRowsFullUnchanged(rows: Board, score: int, status: Status, toEnd: bool)
    requires forall i :: 0 <= i < |rows| ==> |rows[i]| == Size
    requires forall i :: 0 <= i < |rows| ==> AllNonZero(SlideRows(rows, score, status, toEnd).board[i])
    ensures SlideRows(rows, score, status, toEnd).board == rows
    decreases |rows|
  {
    if |rows| > 0 {
      var o := ProcessLine(rows[0], score, status, toEnd);
      var rest := SlideRows(rows[1..], o.score, o.status, toEnd);
      var board := SlideRows(rows, score, status, toEnd).board;
      assert board == [o.cells] + rest.board;
      RowsNonZeroSplit(o.cells, rest.board);
      ProcessLineFullUnchanged(rows[0], score, status, toEnd);
      assert forall i :: 0 <= i < |rows[1..]| ==> rows[1..][i] == rows[i + 1];
      SlideRowsFullUnchanged(rows[1..], o.score, o.status, toEnd);
      assert [rows[0]] + rows[1..] == rows;
    }
  }

  /** A row of four that slides, either way, to a row without an empty
      cell was not changed. */
  lemma ProcessLineFullUnchanged(row: seq<int>, score: int, status: Status, toEnd: bool)
    requires |row| == Size && AllNonZero(ProcessLine(row, score, status, toEnd).cells)
    ensures ProcessLine(row, score, status, toEnd).cells == row
  {
    if toEnd {
      ProcessRowRightFullUnchanged(row, score, status);
    } else {
      ProcessRowFullUnchanged(row, score, status);
    }
  }

  /** A slide that leaves the board without an empty cell did not change
      it: every effective slide leaves room for the new tile. */
  lemma SlideFullUnchanged(st: State, d: Direction)
    requires WellFormed(st.board) && Full(Slide(st, d).board)
    ensures Slide(st, d).board == st.board
  {
    var s := Slide(st, d);
    match d
    case Left =>
      FullRows(s.board);
      SlideRowsFullUnchanged(st.board, st.score, st.status, false);
    case Right =>
      FullRows(s.board);
      SlideRowsFullUnchanged(st.board, st.score, st.status, true);
    case Up =>
      var t := SlideRows(Transpose(st.board), st.score, st.status, false);
      SlideRowsShape(Transpose(st.board), st.score, st.status, false);
      FullTranspose(t.board);
      FullRows(t.board);
      SlideRowsFullUnchanged(Transpose(st.board), st.score, st.status, false);
      TransposeTwice(st.board);
    case Down =>
      var t := SlideRows(Transpose(st.board), st.score, st.status, true);
      SlideRowsShape(Transpose(st.board), st.score, st.status, true);
      FullTranspose(t.board);
      FullRows(t.board);
      SlideRowsFullUnchanged(Transpose(st.board), st.score, st.status, true);
      TransposeTwice(st.board);
  }

  /** On a stuck board no slide changes anything. */
  lemma StuckSlide(st: State, d: Direction)
    requires WellFormed(st.board) && Stuck(st.board)
    ensures Slide(st, d) == st
  {
    var b := st.board;
    var t := Transpose(b);
    forall i | 0 <= i < |b| ensures AllNonZero(b[i]) && NoAdjacentEqual(b[i]) {
      assert forall j :: 0 <= j < Size ==> b[i][j] != 0;
    }
    forall i | 0 <= i < |t| ensures AllNonZero(t[i]) && NoAdjacentEqual(t[i]) {
      assert forall j :: 0 <= j < Size ==> t[i][j] == b[j][i] && b[j][i] != 0;
      forall j | 0 < j < Size ensures t[i][j - 1] != t[i][j] {
        assert t[i][j - 1] == b[j - 1][i] && t[i][j] == b[j][i];
      }
    }
    SlideRowsBlocked(b, st.score, st.status, false);
    SlideRowsBlocked(b, st.score, st.status, true);
    SlideRowsBlocked(t, st.score, st.status, false);
    SlideRowsBlocked(t, st.score, st.status, true);
    TransposeTwice(b);
  }

  /** Lose is declared only when no move is possible: on a stuck board every
      move, in every direction, reports no change and changes nothing. */
  lemma StuckBoardCannotMove(st: State, token: string, c: Choice)
    requires WellFormed(st.board) && Stuck(st.board)
    ensures CanSpawnAfter(st, token, c)
    ensures Move(st, token, c) == MoveOutcome(st, false)
  {
    NameInjective(st.status, st.status);
    match ParseDirection(token)
    case None =>
    case Some(d) =>
      StuckSlide(st, d);
      EmptyCellsNoneIffFull(st.board);
  }

  /** Every row reversed. */
  function MirrorRows(rows: Board): (m: Board)
    ensures |m| == |rows|
    ensures forall i :: 0 <= i < |rows| ==> m[i] == Reverse(rows[i])
    decreases |rows|
  {
    if |rows| == 0 then [] else [Reverse(rows[0])] + MirrorRows(rows[1..])
  }

  lemma {:induction false} SlideRowsMirror(rows: Board, score: int, status: Status)
    ensures var left := SlideRows(rows, score, status, false);
      var right := SlideRows(MirrorRows(rows), score, status, true);
      right == left.(board := MirrorRows(left.board))
    decreases |rows|
  {
    if |rows| > 0 {
      var o := ProcessRow(rows[0], score, status);
      ReverseReverse(rows[0]);
      assert ProcessRowRight(Reverse(rows[0]), score, status) == o.(cells := Reverse(o.cells));
      assert MirrorRows(rows)[1..] == MirrorRows(rows[1..]);
      SlideRowsMirror(rows[1..], o.score, o.status);
      var rest := SlideRows(rows[1..], o.score, o.status, false);
      assert MirrorRows([o.cells] + rest.board) == [Reverse(o.cells)] + MirrorRows(rest.board) by {
        assert ([o.cells] + rest.board)[1..] == rest.board;
      }
    }
  }

  /** Right is Left seen in a mirror: sliding the mirrored board right gives
      the mirror of sliding the board left, with the same score and status. */
  lemma RightMirrorsLeft(st: State)
    requires WellFormed(st.board)
    ensures WellFormed(MirrorRows(st.board))
    ensures var left := Slide(st, Left);
      var right := Slide(st.(board := MirrorRows(st.board)), Right);
      right == left.(board := MirrorRows(left.board))
  {
    var mirrored := st.(board := MirrorRows(st.board));
    assert WellFormed(mirrored.board);
    assert Slide(st, Left) == SlideRows(st.board, st.score, st.status, false);
    assert Slide(mirrored, Right) == SlideRows(mirrored.board, st.score, st.status, true);
    SlideRowsMirror(st.board, st.score, st.status);
  }

  /** One command of a game session: a direction token and the spawn choice
      for the move. */
  datatype Command = Command(token: string, choice: Choice)

  /** Every spawn choice of the session fits the board it is drawn for. */
  predicate Playable(st: State, cmds: seq<Command>)
    requires WellFormed(st.board)
    decreases |cmds|
  {
    |cmds| == 0 ||
      (CanSpawnAfter(st, cmds[0].token, cmds[0].choice)
       && Playable(Move(st, cmds[0].token, cmds[0].choice).state, cmds[1..]))
  }

  /** The state after a sequence of moves. */
  function Play(st: State, cmds: seq<Command>): (r: State)
    requires WellFormed(st.board) && Playable(st, cmds)
    ensures WellFormed(r.board)
    decreases |cmds|
  {
    if |cmds| == 0 then st
    else Play(Move(st, cmds[0].token, cmds[0].choice).state, cmds[1..])
  }

  /** Over any sequence of moves on a board of non-negative tiles, the score
      never decreases. */
  lemma {:induction false} PlayScoreNeverDecreases(st: State, cmds: seq<Command>)
    requires WellFormed(st.board) && Playable(st, cmds) && NonNegative(st.board)
    ensures Play(st, cmds).score >= st.score
    decreases |cmds|
  {
    if |cmds| > 0 {
      MoveScoreNeverDecreases(st, cmds[0].token, cmds[0].choice);
      PlayScoreNeverDecreases(Move(st, cmds[0].token, cmds[0].choice).state, cmds[1..]);
    }
  }
}

=== FILE: row.dfy ===
/**
 The row processor: slides one row toward index 0, merging equal neighbours.
 The three stages follow the engine: drop the empty cells, merge equal
 neighbours left to right (each tile at most once), pad back with zeros.
 */
module RowProcessor {
  import opened Tiles
  import opened GameStatus

  /** The occupied cells of a row, in order. */
  function Compact(row: seq<int>): (r: seq<int>)
    ensures AllNonZero(r)
    ensures |r| == NonZeroCount(row)
    ensures Sum(r) == Sum(row)
    ensures AllNonZero(row) ==> r == row
    ensures AllNonNegative(row) ==> AllNonNegative(r)
  {
    if |row| == 0 then []
    else if row[0] == 0 then Compact(row[1..])
    else [row[0]] + Compact(row[1..])
  }

  /** Filtering a single cell keeps it exactly when it is occupied. */
  lemma CompactOne(x: int)
    ensures Compact([x]) == if x == 0 then [] else [x]
  {
    assert [x][1..] == [];
  }

  /** Filtering works cell by cell, left to right: the occupied cells of a
      joined line are those of the first part followed by those of the
      second, each in their original order. */
  lemma {:induction false} CompactConcat(a: seq<int>, b: seq<int>)
    ensures Compact(a + b) == Compact(a) + Compact(b)
    decreases |a|
  {
    if |a| == 0 {
      assert a + b == b;
    } else {
      assert (a + b)[0] == a[0];
      assert (a + b)[1..] == a[1..] + b;
      CompactConcat(a[1..], b);
    }
  }

  /** Filtering keeps every occupied tile value as often as it occurs. */
  lemma {:induction false} CompactCount(row: seq<int>, x: int)
    requires x != 0
    ensures multiset(Compact(row))[x] == multiset(row)[x]
    decreases |row|
  {
    if |row| > 0 {
      CompactCount(row[1..], x);
      assert row == [row[0]] + row[1..];
    }
  }

  /** The merged line and, in order, the values formed by merges. */
  datatype Merged = Merged(cells: seq<int>, products: seq<int>)

  /** One left-to-right pass: a tile equal to its right neighbour merges with
      it into a tile of double value, and the pass resumes after the pair. */
  function Merge(s: seq<int>): (m: Merged)
    // every merge consumes two tiles and yields one
    ensures |m.cells| + |m.products| == |s|
    // so no tile takes part in two merges
    ensures 2 * |m.products| <= |s|
    decreases |s|
  {
    if |s| == 0 then Merged([], [])
    else if |s| >= 2 && s[0] == s[1] then
      var v := s[0] * 2;
      var rest := Merge(s[2..]);
      Merged([v] + rest.cells, [v] + rest.products)
    else
      var rest := Merge(s[1..]);
      Merged([s[0]] + rest.cells, rest.products)
  }

  /** Merging keeps the total of the tile values. */
  lemma {:induction false} MergeSum(s: seq<int>)
    ensures Sum(Merge(s).cells) == Sum(s)
    decreases |s|
  {
    if |s| >= 2 && s[0] == s[1] {
      MergeSum(s[2..]);
      assert Sum(s) == s[0] + s[1] + Sum(s[2..]) by {
        assert s[1..][1..] == s[2..];
      }
    } else if |s| > 0 {
      MergeSum(s[1..]);
    }
  }

  /** Merging occupied tiles of one sign yields occupied tiles of that sign. */
  lemma {:induction false} MergeSigns(s: seq<int>)
    ensures AllNonZero(s) ==> AllNonZero(Merge(s).cells)
    ensures AllNonNegative(s) ==> AllNonNegative(Merge(s).cells) && AllNonNegative(Merge(s).products)
    decreases |s|
  {
    if |s| >= 2 && s[0] == s[1] {
      MergeSigns(s[2..]);
    } else if |s| > 0 {
      MergeSigns(s[1..]);
    }
  }

  /** A merge happens exactly when two neighbours are equal; otherwise the
      pass returns its input. */
  lemma {:induction false} MergeNone(s: seq<int>)
    ensures |Merge(s).products| == 0 <==> NoAdjacentEqual(s)
    ensures |Merge(s).products| == 0 ==> Merge(s).cells == s
    decreases |s|
  {
    if |s| >= 2 && s[0] == s[1] {
      assert !NoAdjacentEqual(s) by { assert s[1 - 1] == s[1]; }
    } else if |s| > 0 {
      MergeNone(s[1..]);
      assert NoAdjacentEqual(s) <==> NoAdjacentEqual(s[1..]) by {
        if NoAdjacentEqual(s[1..]) {
          forall i | 0 < i < |s| ensures s[i - 1] != s[i] {
            if i > 1 { assert s[1..][i - 2] == s[i - 1] && s[1..][i - 1] == s[i]; }
          }
        }
        if NoAdjacentEqual(s) {
          forall i | 0 < i < |s| - 1 ensures s[1..][i - 1] != s[1..][i] {
            assert s[i] != s[i + 1];
          }
        }
      }
    }
  }

  /** Every merged value is a cell of the result, and every cell of the
      result is an input tile or a merged value. */
  lemma {:induction false} MergeTiles(s: seq<int>)
    ensures multiset(Merge(s).products) <= multiset(Merge(s).cells)
    ensures multiset(Merge(s).cells) <= multiset(s) + multiset(Merge(s).products)
    decreases |s|
  {
    if |s| >= 2 && s[0] == s[1] {
      MergeTiles(s[2..]);
      assert s == [s[0], s[1]] + s[2..];
    } else if |s| > 0 {
      MergeTiles(s[1..]);
      assert s == [s[0]] + s[1..];
    }
  }

  /** Pads a line on the right with zeros up to Size cells. */
  function Pad(s: seq<int>): (r: seq<int>)
    ensures |r| == if |s| < Size then Size else |s|
    ensures forall i :: 0 <= i < |s| ==> r[i] == s[i]
    ensures forall i :: |s| <= i < |r| ==> r[i] == 0
  {
    if |s| < Size then s + Zeros(Size - |s|) else s
  }

  /** What processing a row yields: the new row, score and status. */
  datatype RowOutcome = RowOutcome(cells: seq<int>, score: int, status: Status)

  /** Slides a row toward index 0. The score grows by every merged value, and
      forming the winning tile sets the status to Win. */
  function ProcessRow(row: seq<int>, score: int, status: Status): (o: RowOutcome)
    ensures o.status == status || o.status == Win
  {
    var m := Merge(Compact(row));
    RowOutcome(Pad(m.cells), score + Sum(m.products), if WinningTile in m.products then Win else status)
  }

  /** Slides a row toward its last index: reverse, process, reverse back. */
  function ProcessRowRight(row: seq<int>, score: int, status: Status): (o: RowOutcome)
    ensures o.status == status || o.status == Win
  {
    var o := ProcessRow(Reverse(row), score, status);
    o.(cells := Reverse(o.cells))
  }

  /** Padding adds only empty cells. */
  lemma PadCounts(s: seq<int>)
    ensures Sum(Pad(s)) == Sum(s)
    ensures NonZeroCount(Pad(s)) == NonZeroCount(s)
    ensures AllNonNegative(s) ==> AllNonNegative(Pad(s))
  {
    if |s| < Size {
      SumConcat(s, Zeros(Size - |s|));
      NonZeroCountConcat(s, Zeros(Size - |s|));
      SumZeros(Size - |s|);
    }
  }

  /** A processed row has four cells (for a row of at most four), its
      occupied cells come first, the tile total is kept, and no cell becomes
      occupied. */
  lemma ProcessRowShape(row: seq<int>, score: int, status: Status)
    ensures var o := ProcessRow(row, score, status);
      && (|row| <= Size ==> |o.cells| == Size)
      && ZerosTrail(o.cells)
      && Sum(o.cells) == Sum(row)
      && NonZeroCount(o.cells) <= NonZeroCount(row)
      && (AllNonNegative(row) ==> AllNonNegative(o.cells))
  {
    var c := Compact(row);
    var m := Merge(c);
    MergeSum(c);
    MergeSigns(c);
    PadCounts(m.cells);
    NonZeroCountAll(m.cells);
  }

  /** The score never decreases on a row of non-negative tiles, and it
      changes only when a merge happens. */
  lemma ProcessRowScore(row: seq<int>, score: int, status: Status)
    ensures var o := ProcessRow(row, score, status);
      && (AllNonNegative(row) ==> o.score >= score)
      && (NoAdjacentEqual(Compact(row)) ==> o.score == score && o.status == status && o.cells == Pad(Compact(row)))
  {
    var m := Merge(Compact(row));
    MergeSigns(Compact(row));
    MergeNone(Compact(row));
    if AllNonNegative(row) {
      SumNonNegative(m.products);
    }
  }

  lemma {:induction false} SumNonNegative(s: seq<int>)
    requires AllNonNegative(s)
    ensures Sum(s) >= 0
  {
    if |s| > 0 {
      SumNonNegative(s[1..]);
    }
  }

  /** Two consequences of the Win rule, seen from the row alone: the status
      changes only to Win, with a 2048 in the result, and a row that ends
      with more 2048s than it began with always sets Win. The rule itself,
      Win exactly when a merge forms a 2048, is the one MergeScan states;
      a row can set Win while its count of 2048s falls. */
  lemma ProcessRowWin(row: seq<int>, score: int, status: Status)
    ensures var o := ProcessRow(row, score, status);
      && (o.status != status ==> o.status == Win && WinningTile in o.cells)
      && (multiset(o.cells)[WinningTile] > multiset(row)[WinningTile] ==> o.status == Win)
  {
    var c := Compact(row);
    var m := Merge(c);
    MergeTiles(c);
    assert multiset(m.products) <= multiset(m.cells);
    var p := Pad(m.cells);
    if WinningTile in m.products {
      assert WinningTile in multiset(m.cells);
      var k :| 0 <= k < |m.cells| && m.cells[k] == WinningTile;
      assert p[k] == WinningTile;
    }
    PadCount(m.cells, WinningTile);
    CompactCount(row, WinningTile);
    assert multiset(m.cells)[WinningTile] <= multiset(c)[WinningTile] + multiset(m.products)[WinningTile];
  }

  /** Padding adds only empty cells: every tile value occurs as often as
      before. */
  lemma PadCount(s: seq<int>, x: int)
    requires x != 0
    ensures multiset(Pad(s))[x] == multiset(s)[x]
  {
    if |s| < Size {
      var z := Zeros(Size - |s|);
      assert Pad(s) == s + z;
      assert x !in z;
      assert multiset(s + z) == multiset(s) + multiset(z);
    }
  }

  /** A row that comes back unchanged had nothing to merge: its score and
      status are kept. */
  lemma ProcessRowUnchanged(row: seq<int>, score: int, status: Status)
    requires ProcessRow(row, score, status).cells == row
    ensures ProcessRow(row, score, status).score == score
    ensures ProcessRow(row, score, status).status == status
  {
    var c := Compact(row);
    var m := Merge(c);
    MergeSigns(c);
    NonZeroCountAll(m.cells);
    PadCounts(m.cells);
    MergeNone(c);
  }

  /** A full row with no equal neighbours cannot slide or merge. */
  lemma ProcessRowBlocked(row: seq<int>, score: int, status: Status)
    requires |row| == Size && AllNonZero(row) && NoAdjacentEqual(row)
    ensures ProcessRow(row, score, status) == RowOutcome(row, score, status)
  {
    MergeNone(row);
  }

  /** Sliding toward the last index keeps the tile total, and empty cells
      lead. */
  lemma ProcessRowRightShape(row: seq<int>, score: int, status: Status)
    ensures var o := ProcessRowRight(row, score, status);
      && (|row| <= Size ==> |o.cells| == Size)
      && ZerosTrail(Reverse(o.cells))
      && Sum(o.cells) == Sum(row)
      && (AllNonNegative(row) ==> o.score >= score && AllNonNegative(o.cells))
  {
    var o := ProcessRow(Reverse(row), score, status);
    ProcessRowShape(Reverse(row), score, status);
    ProcessRowScore(Reverse(row), score, status);
    ReverseReverse(o.cells);
    SumReverse(row);
    SumReverse(o.cells);
  }

  /** A row that slides toward its last index and comes back unchanged keeps
      its score and status. */
  lemma ProcessRowRightUnchanged(row: seq<int>, score: int, status: Status)
    requires ProcessRowRight(row, score, status).cells == row
    ensures ProcessRowRight(row, score, status).score == score
    ensures ProcessRowRight(row, score, status).status == status
  {
    var o := ProcessRow(Reverse(row), score, status);
    assert Reverse(o.cells) == row;
    ReverseReverse(o.cells);
    assert o.cells == Reverse(row);
    ProcessRowUnchanged(Reverse(row), score, status);
  }

  /** A row of four that slides to a row with no empty cell was not changed
      by the slide: a merge or a closed gap always leaves an empty cell at
      the end. */
  lemma ProcessRowFullUnchanged(row: seq<int>, score: int, status: Status)
    requires |row| == Size && AllNonZero(ProcessRow(row, score, status).cells)
    ensures ProcessRow(row, score, status).cells == row
  {
    var c := Compact(row);
    var m := Merge(c);
    var cells := ProcessRow(row, score, status).cells;
    assert cells == Pad(m.cells);
    assert |cells| == Size && cells[Size - 1] != 0;
    assert |m.cells| >= Size;
    assert |m.products| == 0;
    MergeNone(c);
    NonZeroCountFull(row);
  }

  /** The same for a slide toward the last index. */
  lemma ProcessRowRightFullUnchanged(row: seq<int>, score: int, status: Status)
    requires |row| == Size && AllNonZero(ProcessRowRight(row, score, status).cells)
    ensures ProcessRowRight(row, score, status).cells == row
  {
    var o := ProcessRow(Reverse(row), score, status);
    assert AllNonZero(o.cells) by {
      var r := Reverse(o.cells);
      forall i | 0 <= i < |o.cells| ensures o.cells[i] != 0 {
        assert r[|o.cells| - 1 - i] == o.cells[i];
      }
    }
    ProcessRowFullUnchanged(Reverse(row), score, status);
    ReverseReverse(row);
  }

  /** A full row with no equal neighbours cannot slide toward its last index
      either. */
  lemma ProcessRowRightBlocked(row: seq<int>, score: int, status: Status)
    requires |row| == Size && AllNonZero(row) && NoAdjacentEqual(row)
    ensures ProcessRowRight(row, score, status) == RowOutcome(row, score, status)
  {
    var r := Reverse(row);
    assert NoAdjacentEqual(r) by {
      forall i | 0 < i < |r| ensures r[i - 1] != r[i] {
        assert r[i - 1] == row[|row| - i] && r[i] == row[|row| - i - 1];
      }
    }
    ProcessRowBlocked(r, score, status);
    ReverseReverse(row);
  }

  /** Worked example: four equal tiles form two pairs, not one tile of 8. */
  lemma ProcessRowFourEqual()
    ensures ProcessRow([2, 2, 2, 2], 0, Playing) == RowOutcome([4, 4, 0, 0], 8, Playing)
  {
    var row := [2, 2, 2, 2];
    assert row[1..] == [2, 2, 2] && row[2..] == [2, 2];
    assert Compact(row) == row;
    assert Merge(row[2..]) == Merged([4], [4]) by {
      assert [2, 2][2..] == [];
    }
    assert Merge(row) == Merged([4, 4], [4, 4]);
    assert Pad([4, 4]) == [4, 4, 0, 0];
    assert Sum([4, 4]) == 8;
  }

  /** Worked example: a tile consumed by a merge is not merged again. */
  lemma ProcessRowGap()
    ensures ProcessRow([2, 0, 2, 2], 0, Playing) == RowOutcome([4, 2, 0, 0], 4, Playing)
  {
    var row := [2, 0, 2, 2];
    assert row[1..] == [0, 2, 2] && [0, 2, 2][1..] == [2, 2] && [2, 2][1..] == [2] && [2][1..] == [];
    assert Compact([2, 2]) == [2, 2];
    assert Compact(row) == [2, 2, 2];
    assert Merge([2]) == Merged([2], []);
    assert [2, 2, 2][2..] == [2];
    assert Merge([2, 2, 2]) == Merged([4, 2], [4]);
    assert Pad([4, 2]) == [4, 2, 0, 0];
    assert Sum([4]) == 4;
  }

  /** Worked example: merging two 1024 tiles wins the game and scores 2048. */
  lemma ProcessRowWinningMerge()
    ensures ProcessRow([1024, 1024, 0, 0], 0, Playing) == RowOutcome([2048, 0, 0, 0], 2048, Win)
  {
    var row := [1024, 1024, 0, 0];
    assert row[1..] == [1024, 0, 0] && [1024, 0, 0][1..] == [0, 0] && [0, 0][1..] == [0] && [0][1..] == [];
    assert Compact(row) == [1024, 1024];
    assert [1024, 1024][2..] == [];
    assert Merge([1024, 1024]) == Merged([2048], [2048]);
    assert Pad([2048]) == [2048, 0, 0, 0];
    assert Sum([2048]) == 2048;
  }

  /** The row processor as the engine writes it: drop the empty cells, scan,
      then pad. */
  method ProcessRowScan(row: seq<int>, score: int, status: Status)
    returns (cells: seq<int>, newScore: int, newStatus: Status)
    ensures RowOutcome(cells, newScore, newStatus) == ProcessRow(row, score, status)
  {
    var slid := Compact(row);
    var merged;
    merged, newScore, newStatus := MergeScan(slid, score, status);
    cells := PadScan(merged);
  }

  /** The merge pass from index i: a pair merges and the pass resumes two
      cells on, otherwise the cell is kept and the pass resumes one cell on. */
  lemma MergeAt(s: seq<int>, i: nat)
    requires i < |s|
    ensures i + 1 < |s| && s[i] == s[i + 1] ==>
      Merge(s[i..]) == Merged([s[i] * 2] + Merge(s[i + 2..]).cells, [s[i] * 2] + Merge(s[i + 2..]).products)
    ensures !(i + 1 < |s| && s[i] == s[i + 1]) ==>
      Merge(s[i..]) == Merged([s[i]] + Merge(s[i + 1..]).cells, Merge(s[i + 1..]).products)
  {
    assert s[i..][1..] == s[i + 1..];
    if i + 1 < |s| {
      assert s[i..][2..] == s[i + 2..];
    }
  }

  /** The merge loop after i cells: the cells and merged values produced so
      far, followed by the pass over the rest, make up the whole pass. */
  ghost predicate MergedUpTo(slid: seq<int>, i: nat, merged: seq<int>, products: seq<int>)
  {
    && i <= |slid|
    && merged + Merge(slid[i..]).cells == Merge(slid).cells
    && products + Merge(slid[i..]).products == Merge(slid).products
  }

  /** A merging pair advances the loop by two cells. */
  lemma MergePairStep(slid: seq<int>, i: nat, merged: seq<int>, products: seq<int>)
    requires MergedUpTo(slid, i, merged, products)
    requires i + 1 < |slid| && slid[i] == slid[i + 1]
    ensures MergedUpTo(slid, i + 2, merged + [slid[i] * 2], products + [slid[i] * 2])
  {
    MergeAt(slid, i);
    var v := slid[i] * 2;
    var rest := Merge(slid[i + 2..]);
    assert merged + [v] + rest.cells == merged + ([v] + rest.cells);
    assert products + [v] + rest.products == products + ([v] + rest.products);
  }

  /** A cell that does not merge advances the loop by one cell. */
  lemma MergeSingleStep(slid: seq<int>, i: nat, merged: seq<int>, products: seq<int>)
    requires MergedUpTo(slid, i, merged, products)
    requires i < |slid| && !(i + 1 < |slid| && slid[i] == slid[i + 1])
    ensures MergedUpTo(slid, i + 1, merged + [slid[i]], products)
  {
    MergeAt(slid, i);
    var rest := Merge(slid[i + 1..]);
    assert merged + [slid[i]] + rest.cells == merged + ([slid[i]] + rest.cells);
  }

  /** The merge loop of the row processor: an index that skips the consumed
      neighbour after each merge, adding every merged value to the score. */
  method MergeScan(slid: seq<int>, score: int, status: Status)
    returns (merged: seq<int>, newScore: int, newStatus: Status)
    ensures merged == Merge(slid).cells
    ensures newScore == score + Sum(Merge(slid).products)
    ensures newStatus == if WinningTile in Merge(slid).products then Win else status
  {
    merged := [];
    ghost var products: seq<int> := [];
    newScore, newStatus := score, status;
    var i := 0;
    assert slid[0..] == slid;
    while i < |slid|
      invariant MergedUpTo(slid, i, merged, products)
      invariant newScore == score + Sum(products)
      invariant newStatus == if WinningTile in products then Win else status
      decreases |slid| - i
    {
      if i + 1 < |slid| && slid[i] == slid[i + 1] {
        var mergedValue := slid[i] * 2;
        if mergedValue == WinningTile {
          newStatus := Win;
        }
        MergePairStep(slid, i, merged, products);
        SumConcat(products, [mergedValue]);
        merged := merged + [mergedValue];
        products := products + [mergedValue];
        newScore := newScore + mergedValue;
        i := i + 2;
      } else {
        MergeSingleStep(slid, i, merged, products);
        merged := merged + [slid[i]];
        i := i + 1;
      }
    }
    assert Merge(slid[i..]) == Merged([], []);
    assert merged + [] == merged && products + [] == products;
  }

  /** The padding loop of the row processor. */
  method PadScan(s: seq<int>) returns (r: seq<int>)
    ensures r == Pad(s)
  {
    r := s;
    while |r| < Size
      invariant |s| <= |r|
      invariant |s| < Size ==> |r| <= Size
      invariant |s| >= Size ==> r == s
      invariant r == s + Zeros(|r| - |s|)
    {
      assert s + Zeros(|r| - |s|) + [0] == s + Zeros(|r| + 1 - |s|);
      r := r + [0];
    }
  }
}

=== FILE: spawn.dfy ===
/**
 The tile spawner. The engine picks an empty cell and a tile value at random;
 here both choices arrive as a parameter, so the spawner is a function.
 */
module Spawner {
  import opened Tiles
  import opened Grid

  /** The two random choices of one spawn: a position in the row-major list
      of empty cells, and whether the new tile is a 4 rather than a 2. */
  datatype Choice = Choice(index: nat, four: bool)

  /** The value of the tile a choice places. */
  function TileValue(c: Choice): (v: int)
    ensures v == 2 || v == 4
  {
    if c.four then 4 else 2
  }

  /** The random index is drawn below the number of empty cells, whenever
      the board has an empty cell. */
  predicate Fits(b: Board, c: Choice)
    requires WellFormed(b)
  {
    Full(b) || c.index < |EmptyCells(b)|
  }

  /** Places a 2 or a 4 on the chosen empty cell; a full board is returned
      as it is. The tile adds one occupied cell and its value to the total. */
  function Spawn(b: Board, c: Choice): (r: Board)
    requires WellFormed(b) && Fits(b, c)
    ensures WellFormed(r)
    ensures Full(b) ==> r == b
    ensures !Full(b) ==> Count(r) == Count(b) + 1 && Total(r) == Total(b) + TileValue(c)
  {
    EmptyCellsNoneIffFull(b);
    var cells := EmptyCells(b);
    if |cells| == 0 then b
    else
      assert cells[c.index] in cells;
      PlaceCounts(b, cells[c.index], TileValue(c));
      Place(b, cells[c.index], TileValue(c))
  }

  /** On a board with an empty cell, exactly the chosen empty cell changes:
      it was empty and now holds the new tile. */
  lemma SpawnCell(b: Board, c: Choice)
    requires WellFormed(b) && Fits(b, c) && !Full(b)
    ensures InBounds(EmptyCells(b)[c.index])
    ensures var p := EmptyCells(b)[c.index];
      && b[p.row][p.col] == 0
      && Spawn(b, c)[p.row][p.col] == TileValue(c)
      && (forall i, j :: 0 <= i < Size && 0 <= j < Size && (i != p.row || j != p.col) ==> Spawn(b, c)[i][j] == b[i][j])
  {
    var p := EmptyCells(b)[c.index];
    assert p in EmptyCells(b);
    assert Spawn(b, c) == Place(b, p, TileValue(c));
  }

  /** Every empty cell can receive the new tile, with either value. */
  lemma SpawnReachesEveryEmptyCell(b: Board, p: Pos, four: bool)
    requires WellFormed(b) && InBounds(p) && IsEmpty(b, p)
    ensures exists k :: (0 <= k < |EmptyCells(b)| && EmptyCells(b)[k] == p
                         && Spawn(b, Choice(k, four))[p.row][p.col] == TileValue(Choice(k, four)))
  {
    var k := EmptyCellIndex(b, p);
    assert !Full(b) by {
      assert b[p.row][p.col] == 0;
    }
    SpawnCell(b, Choice(k, four));
  }

  /** The position of an empty cell in the list of empty cells. */
  lemma EmptyCellIndex(b: Board, p: Pos) returns (k: nat)
    requires WellFormed(b) && InBounds(p) && IsEmpty(b, p)
    ensures k < |EmptyCells(b)| && EmptyCells(b)[k] == p
  {
    EmptyCellsComplete(b);
    assert Pos(p.row, p.col) in EmptyCells(b);
    k :| 0 <= k < |EmptyCells(b)| && EmptyCells(b)[k] == p;
  }

  /** Spawning keeps tiles non-negative. */
  lemma SpawnNonNegative(b: Board, c: Choice)
    requires WellFormed(b) && Fits(b, c) && NonNegative(b)
    ensures NonNegative(Spawn(b, c))
  {
    if !Full(b) {
      SpawnCell(b, c);
    }
  }
}

=== FILE: status.dfy ===
/**
 The game status and the tile value that wins the game.
 */
module GameStatus {

  datatype Status = Idle | Playing | Win | Lose

  /** Forming a tile of this value wins the game. */
  const WinningTile: int := 2048

  /** The status as the engine reports it to its caller. */
  function Name(s: Status): (n: string)
    ensures n == "idle" || n == "playing" || n == "win" || n == "lose"
  {
    match s
    case Idle => "idle"
    case Playing => "playing"
    case Win => "win"
    case Lose => "lose"
  }

  /** Distinct statuses are reported under distinct names, and none of them
      is the "game over" marker that the move guard compares against. */
  lemma NameInjective(s: Status, t: Status)
    ensures Name(s) == Name(t) <==> s == t
    ensures Name(s) != "game over"
  {
  }
}

=== FILE: terminal.dfy ===
/**
 The terminal detector: after an effective move, the game is lost when the
 board has no empty cell and no two equal neighbours.
 */
module Terminal {
  import opened Tiles
  import opened Grid
  import opened GameStatus

  /** Cell (i, j) still allows a move: it is empty, or it equals the cell
      below it or the cell to its right. */
  predicate Opening(b: Board, i: nat, j: nat)
    requires WellFormed(b) && i < Size && j < Size
  {
    || b[i][j] == 0
    || (i < Size - 1 && b[i][j] == b[i + 1][j])
    || (j < Size - 1 && b[i][j] == b[i][j + 1])
  }

  /** Scans row i from column j on for an opening. */
  function ScanRow(b: Board, i: nat, j: nat): (found: bool)
    requires WellFormed(b) && i < Size && j <= Size
    ensures found <==> exists c :: j <= c < Size && Opening(b, i, c)
    decreases Size - j
  {
    if j == Size then false
    else Opening(b, i, j) || ScanRow(b, i, j + 1)
  }

  /** Scans rows i and below, in row-major order, for an opening. */
  function ScanFrom(b: Board, i: nat): (found: bool)
    requires WellFormed(b) && i <= Size
    ensures found <==> exists r, c :: i <= r < Size && 0 <= c < Size && Opening(b, r, c)
    decreases Size - i
  {
    if i == Size then false
    else ScanRow(b, i, 0) || ScanFrom(b, i + 1)
  }

  /** No two horizontally or vertically adjacent cells are equal. */
  predicate NoEqualNeighbours(b: Board)
    requires WellFormed(b)
  {
    && (forall i, j {:trigger b[i][j]} :: 0 < i < Size && 0 <= j < Size ==> b[i - 1][j] != b[i][j])
    && (forall i, j :: 0 <= i < Size && 0 < j < Size ==> b[i][j - 1] != b[i][j])
  }

  /** A full board with no equal neighbours: the board on which the terminal
      check sets Lose. */
  predicate Stuck(b: Board)
    requires WellFormed(b)
  {
    Full(b) && NoEqualNeighbours(b)
  }

  /** The status after the check: Lose when the board is full with no equal
      neighbours, otherwise the status as it was, whatever it was. */
  function CheckGameOver(b: Board, status: Status): (s: Status)
    requires WellFormed(b)
    ensures s == if Stuck(b) then Lose else status
  {
    StuckIffNoOpening(b);
    if ScanFrom(b, 0) then status else Lose
  }

  lemma StuckIffNoOpening(b: Board)
    requires WellFormed(b)
    ensures !ScanFrom(b, 0) <==> Stuck(b)
  {
    if !ScanFrom(b, 0) {
      forall i, j | 0 <= i < Size && 0 <= j < Size ensures b[i][j] != 0 {
        assert !Opening(b, i, j);
      }
      forall i, j {:trigger b[i][j]} | 0 < i < Size && 0 <= j < Size ensures b[i - 1][j] != b[i][j] {
        assert !Opening(b, i - 1, j);
      }
      forall i, j | 0 <= i < Size && 0 < j < Size ensures b[i][j - 1] != b[i][j] {
        assert !Opening(b, i, j - 1);
      }
    }
  }
}

=== FILE: tiles.dfy ===
/**
 Facts about a single line of tiles: a row or a column of the 2048 board,
 read as a sequence of integers where 0 is an empty cell.
 */
module Tiles {
  /** Cells in a line, and lines on the board. */
  const Size: nat := 4


  /** Sum of the tile values of a line. */
  function Sum(s: seq<int>): int
  {
    if |s| == 0 then 0 else s[0] + Sum(s[1..])
  }

  /** Number of occupied (non-zero) cells of a line. */
  function NonZeroCount(s: seq<int>): (n: nat)
    ensures n <= |s|
  {
    if |s| == 0 then 0 else (if s[0] != 0 then 1 else 0) + NonZeroCount(s[1..])
  }

  predicate AllNonZero(s: seq<int>)
  {
    forall i :: 0 <= i < |s| ==> s[i] != 0
  }

  predicate AllNonNegative(s: seq<int>)
  {
    forall i :: 0 <= i < |s| ==> s[i] >= 0
  }

  /** No two neighbouring tiles of the line are equal, so nothing can merge. */
  predicate NoAdjacentEqual(s: seq<int>)
  {
    forall i :: 0 < i < |s| ==> s[i - 1] != s[i]
  }

  /** Once a zero appears, every later cell is zero: occupied cells come first. */
  predicate ZerosTrail(s: seq<int>)
  {
    forall i, j :: 0 <= i < j < |s| && s[i] == 0 ==> s[j] == 0
  }

  function Zeros(n: nat): (z: seq<int>)
    ensures |z| == n
    ensures forall i :: 0 <= i < n ==> z[i] == 0
  {
    seq(n, _ => 0)
  }

  function Reverse(s: seq<int>): (r: seq<int>)
    ensures |r| == |s|
    ensures forall i :: 0 <= i < |s| ==> r[i] == s[|s| - 1 - i]
  {
    if |s| == 0 then [] else Reverse(s[1..]) + [s[0]]
  }

  lemma ReverseReverse(s: seq<int>)
    ensures Reverse(Reverse(s)) == s
  {
  }

  lemma {:induction false} SumConcat(a: seq<int>, b: seq<int>)
    ensures Sum(a + b) == Sum(a) + Sum(b)
  {
    if |a| == 0 {
      assert a + b == b;
    } else {
      assert (a + b)[1..] == a[1..] + b;
      SumConcat(a[1..], b);
    }
  }

  lemma {:induction false} NonZeroCountConcat(a: seq<int>, b: seq<int>)
    ensures NonZeroCount(a + b) == NonZeroCount(a) + NonZeroCount(b)
  {
    if |a| == 0 {
      assert a + b == b;
    } else {
      assert (a + b)[1..] == a[1..] + b;
      NonZeroCountConcat(a[1..], b);
    }
  }

  lemma {:induction false} SumZeros(n: nat)
    ensures Sum(Zeros(n)) == 0
    ensures NonZeroCount(Zeros(n)) == 0
  {
    if n > 0 {
      assert Zeros(n)[1..] == Zeros(n - 1);
      SumZeros(n - 1);
    }
  }

  /** A line whose cells are all counted as occupied has no empty cell. */
  lemma {:induction false} NonZeroCountFull(s: seq<int>)
    requires NonZeroCount(s) == |s|
    ensures AllNonZero(s)
  {
    if |s| > 0 {
      assert s[0] != 0;
      NonZeroCountFull(s[1..]);
      assert forall i :: 1 <= i < |s| ==> s[i] == s[1..][i - 1];
    }
  }

  lemma {:induction false} NonZeroCountAll(s: seq<int>)
    requires AllNonZero(s)
    ensures NonZeroCount(s) == |s|
  {
    if |s| > 0 {
      NonZeroCountAll(s[1..]);
    }
  }

  lemma {:induction false} SumReverse(s: seq<int>)
    ensures Sum(Reverse(s)) == Sum(s)
    ensures NonZeroCount(Reverse(s)) == NonZeroCount(s)
  {
    if |s| > 0 {
      SumReverse(s[1..]);
      SumConcat(Reverse(s[1..]), [s[0]]);
      NonZeroCountConcat(Reverse(s[1..]), [s[0]]);
    }
  }

  /** Replacing one cell changes the sum by the difference of the two values. */
  lemma {:induction false} SumUpdate(s: seq<int>, j: nat, v: int)
    requires j < |s|
    ensures Sum(s[j := v]) == Sum(s) - s[j] + v
  {
    if j == 0 {
      assert s[j := v][1..] == s[1..];
    } else {
      assert s[j := v][1..] == s[1..][j - 1 := v];
      SumUpdate(s[1..], j - 1, v);
    }
  }

  /** Filling one empty cell with a tile adds exactly one occupied cell. */
  lemma {:induction false} NonZeroCountFill(s: seq<int>, j: nat, v: int)
    requires j < |s| && s[j] == 0 && v != 0
    ensures NonZeroCount(s[j := v]) == NonZeroCount(s) + 1
  {
    if j == 0 {
      assert s[j := v][1..] == s[1..];
    } else {
      assert s[j := v][1..] == s[1..][j - 1 := v];
      NonZeroCountFill(s[1..], j - 1, v);
    }
  }
}
